=== FILE: README.md ===
# BSC testnet wallet — a Dafny model

This project models the decision logic of a small wallet for the BNB Smart Chain testnet
(chain id 97). The wallet has four parts:

- **Wallet generator.** Validates a BIP-39 mnemonic, derives the key of the first address
  of a BIP-44 account (coin type 60), creates fresh wallets and imports raw private keys.
- **Native (BNB) transfers.** Reads balances, builds a transaction, signs it, broadcasts it
  and watches for its receipt. A failed broadcast is sorted into a fixed set of error
  classes.
- **BEP-20 token transfers.** The same pipeline, plus token metadata with per-field
  defaults and `balanceOf`.
- **Wallet facade.** Validates addresses, answers a one-shot transaction status query and
  collects every balance of a wallet.

The chain node, eth_account, the BIP-39 `mnemonic` library and `bip_utils` are not modelled
internally. They are oracles: total functions in the `Collaborators.Node` and
`Collaborators.Keys` datatypes. Each call into them either answers a value or raises.

The operations that talk to the chain node, read token contracts, sign or derive keys
return their result together with a log of those calls, in order. The log records balance,
nonce, gas-price, token-field and `balanceOf` reads, signing, sending, confirmation waits,
seed and key derivation. It does not record `is_address`, `to_checksum_address` or
`Account.from_key`. The one-shot operations (`get_transaction_status`, `get_all_balances`,
the import of a private key, address and mnemonic validation, `get_token_contract`) return
no log.

The log lets the model state ordering properties directly. Examples:

- for native transfers, both addresses are checked before any chain read; for tokens, the
  sender and recipient are checked after the four metadata reads but before any gas-price
  or nonce read, and the wallet address before `balanceOf`;
- the balance gate comes before any gas-price or nonce read, signing, broadcast or wait;
- a mnemonic is validated before any seed is derived.

The confirmation watcher is a loop against an abstract clock. The loop is proved equal to a
recursive reference definition, and properties are proved about that definition. The
properties are:

- termination;
- a receipt that arrives in time is always seen;
- the number of polls is bounded by the timeout;
- a timeout of zero or less raises at once.

Amounts are exact reals. Base units are `int(amount * 10**decimals)`, truncated toward zero
as Python's `int()` does. Both balance gates compare the formatted balance with the
requested amount, and both let every negative amount through. web3 then refuses the
amount in two different ways. For BNB, `to_wei` tests the exact amount in wei before any
rounding and refuses one outside `0 .. 2^256 - 1`, so every negative amount is refused, before
any chain read. For tokens, the `uint256` argument of the `transfer` call is tested when the
call is built, after the nonce read, and it tests the truncated raw amount: an amount less
than one base unit below zero truncates to 0 and builds a transfer of 0, while every more
negative amount is refused.

The two wallet paths differ. The derived key walks `m/44'/60'/i'/0/0`: the index is the
account. The record reports `m/44'/60'/0'/0/i`: the index is the address. The model proves
that the two agree, and that the reported path equals the configured `BIP44_PATH`, exactly
when the index is 0.

Modules, one file each: `Base`, `Text`, `Config`, `Errors`, `Collaborators`, `Units`,
`Broadcast`, `Watcher`, `Transfers`, `BnbTransfer`, `TokenTransfer`, `BscWallet`,
`WalletGenerator`. The BNB and token modules of the source repeat `estimate_gas_price`,
`sign_transaction` and `wait_for_confirmation` almost word for word. These are modelled once,
in `Transfers` and `Watcher`.

## Model

| member | source | states |
|---|---|---|
| Text.Lower | bsc_wallet/bnb_transfer.py:208 | the lowered message has the same length and every character is lowered on its own |
| Text.Contains | bsc_wallet/bnb_transfer.py:211-222 | the substring scan answers true exactly when the pattern occurs at some offset |
| Text.OccursLower | bsc_wallet/bnb_transfer.py:208-211 | an occurrence in the original message is still an occurrence after both sides are lowered |
| Text.NatToString | bsc_wallet/wallet_generator.py:99 | the rendering of an index is one or more decimal digits, a single digit exactly for indices below ten |
| Text.NatToStringRoundTrip | bsc_wallet/wallet_generator.py:99 | reading the rendering of an index back as a decimal number gives the index |
| Text.NatToStringInjective | bsc_wallet/wallet_generator.py:99 | two indices have the same rendering exactly when they are equal |
| Text.NatToStringLeadingDigit | bsc_wallet/wallet_generator.py:99 | the decimal rendering of an index starts with the digit 0 exactly when the index is 0 |
| Text.NatToStringZero | bsc_wallet/wallet_generator.py:99 | the rendering is "0" for index 0 and for no other index |
| Text.Hex | bsc_wallet/wallet_generator.py:86 | each byte of the key becomes two lower-case hex digits, the high nibble first, so the text has two characters per byte |
| Text.HexHasNoPrefix | bsc_wallet/wallet_generator.py:85-86 | the hex text of a derived key never begins with "0x" |
| Text.StripHexPrefix | bsc_wallet/bnb_transfer.py:173-175 | a key that begins with "0x" loses exactly those two characters; any other key is kept as given |
| Text.StripHexPrefixInverse | bsc_wallet/wallet_generator.py:137-139 | stripping undoes prepending "0x" to any key, including one that itself starts with "0x" |
| Text.StripHexPrefixCaseSensitive | bsc_wallet/wallet_generator.py:138 | an upper-case "0X" prefix is not removed |
| Errors.ClassOf | bsc_wallet/bnb_transfer.py:211-225 | a ConnectionError is raised exactly for the connectivity class, a TimeoutError exactly for a confirmation timeout, and an exception raised inside a collaborator, the range refusal of web3 included, passes through unchanged |
| Config.ExplorerTxUrl | bsc_wallet/bnb_transfer.py:321 | the explorer link is the explorer's `/tx/` page followed by the hash itself, which can be read back from the link |
| Config.ExplorerUrlIdentifiesTx | bsc_wallet/bsc_wallet.py:303 | two hashes get the same explorer link exactly when they are equal |
| Collaborators.ReceiptStatus | bsc_wallet/bnb_transfer.py:246 | a receipt reads as Success exactly when its status is 1, and otherwise as Failed, never as Pending or Not Found |
| Units.Trunc | bsc_wallet/token_transfer.py:231 | `int()` truncates toward zero: the result is within one of the argument, on the side of zero |
| Units.FromBaseUnits | bsc_wallet/token_transfer.py:164 | a raw balance formatted with its decimals and scaled back by `10^decimals` is the raw balance; the formatted amount is zero or negative exactly when the raw one is |
| Units.ToBaseUnits | bsc_wallet/token_transfer.py:231 | a non-negative amount becomes the largest number of base units worth no more than it; a negative amount the smallest worth no less than it |
| Units.BaseUnitsRoundTrip | bsc_wallet/token_transfer.py:229-231 | converting a raw amount to a human amount and back to base units gives the raw amount again |
| Units.ScaledInUint256Cases | bsc_wallet/bnb_transfer.py:135 | an amount `to_wei` accepts truncates to a wei amount a `uint256` holds; every negative amount is refused, also one less than a wei below zero; a non-negative amount whose truncation lies below `2^256 - 1` is accepted |
| Units.Below | bsc_wallet/bnb_transfer.py:296 | the gate on formatted balances holds exactly when the raw balance is below the scaled amount |
| Units.GatePassedCoversTransfer | bsc_wallet/token_transfer.py:383-389 | an amount that passed the gate never converts to more base units than the balance holds |
| Units.ZeroBalance | bsc_wallet/bnb_transfer.py:298 | the formatted balance is 0 exactly when the raw balance is 0 |
| Broadcast.Classify | bsc_wallet/bnb_transfer.py:207-225 | the class chosen is that of a test that matches the lowered message, and no earlier test matches; the fallback keeps the message as given |
| Broadcast.FirstMatchWins | bsc_wallet/bnb_transfer.py:211-221 | whenever a test matches, the class comes from that test or an earlier one |
| Broadcast.FundsBeforeTimeout | bsc_wallet/bnb_transfer.py:211-222 | a message naming both insufficient funds and a timeout is classified as insufficient funds |
| Broadcast.ClassifyIgnoresCase | bsc_wallet/bnb_transfer.py:208 | a message and its lower-cased form get the same class |
| Broadcast.UpperCaseRecognised | bsc_wallet/bnb_transfer.py:208-212 | "INSUFFICIENT FUNDS" in capitals is recognised as insufficient funds |
| Broadcast.ExceptionClassOfBroadcast | bsc_wallet/bnb_transfer.py:211-225 | a broadcast failure is a ConnectionError exactly when only the connection/timeout test matches; in every other case, including no match, it is a ValueError |
| Broadcast.Message | bsc_wallet/bnb_transfer.py:211-225 | only the fallback text opens with "Transaction broadcast failed: ", and the node's own text follows that prefix unchanged |
| Broadcast.UnmatchedKeepsOriginal | bsc_wallet/bnb_transfer.py:223-225 | an unmatched message is reported after "Transaction broadcast failed: " with its original, un-lowered text |
| Watcher.Outcome | bsc_wallet/bnb_transfer.py:241-264 | the recursive reference definition of the polling loop; its own contract only counts lookups, and what it means is stated by `Watcher.OutcomeCases`, `Watcher.ReceiptInTimeIsSeen` and `Watcher.PollsBounded` |
| Watcher.OutcomeCases | bsc_wallet/bnb_transfer.py:242-264 | every watch either returns the first receipt that arrives in time, with its status, gas and block, or times out after in-time lookups that all found nothing |
| Watcher.ClockAdvances | bsc_wallet/bnb_transfer.py:242-262 | because of the 2-second sleep, loop tests n apart are at least 2n seconds apart |
| Watcher.ReceiptInTimeIsSeen | bsc_wallet/bnb_transfer.py:242-258 | a receipt present at a loop test before the deadline is never missed: the watch succeeds at that lookup or an earlier one |
| Watcher.PollsBounded | bsc_wallet/bnb_transfer.py:242-264 | the lookups all fall before the deadline, 2 seconds apart; with a timeout already reached the watch raises at once without a lookup |
| Watcher.Watch | bsc_wallet/bnb_transfer.py:227-268 | the polling loop ends exactly as the reference definition: Success iff status 1, lookups that raise or return nothing never end it, and it raises at once when the timeout is zero or less; the token copy at token_transfer.py:308-349 differs only in its log and timeout message texts |
| Transfers.CheckAddress | bsc_wallet/bnb_transfer.py:125-131 | an address is accepted exactly when `is_address` answers true, and then in checksum form; a false answer raises the role's ValueError |
| Transfers.EstimateGasPrice | bsc_wallet/bnb_transfer.py:94-107 | the price is the network's, or exactly the 20 gwei default when that read raises |
| Transfers.ResolveGasPrice | bsc_wallet/token_transfer.py:233-235 | an explicit price is used unchanged; otherwise the estimated one is used |
| Transfers.GasPriceSources | bsc_wallet/bnb_transfer.py:138-139 | the price used is the explicit one, else the network's, else 20 gwei; an explicit price makes the node irrelevant |
| Transfers.SignTransaction | bsc_wallet/bnb_transfer.py:161-185 | the signer receives the key with one leading "0x" removed, and signing is the only call made |
| Transfers.GatedAfterRead | bsc_wallet/bnb_transfer.py:295-317 | a log that begins with a balance read and no transfer step has every later transfer step preceded by that read |
| BnbTransfer.GetBalance | bsc_wallet/bnb_transfer.py:57-92 | succeeds exactly when the address is valid and the balance read answers; an invalid address is rejected before the balance is read, and an exception of `is_address` or of the read reaches the caller unchanged; the balance of the checksum address is reported in wei and in BNB |
| BnbTransfer.CreateTransaction | bsc_wallet/bnb_transfer.py:109-159 | builds a transaction exactly when both addresses are valid, the amount's exact value in wei lies in the `uint256` range and the nonce read answers; an invalid address or an out-of-range amount, hence every negative amount, is rejected before any chain read; an exception of `is_address` or of the nonce read reaches the caller unchanged; the transaction has gas 21000, chain id 97, the checksum recipient, the scaled value, the sender's current nonce and the gas-price rule |
| BnbTransfer.TransactionUsesChecksum | bsc_wallet/bnb_transfer.py:124-132 | the transaction depends on the addresses only through `is_address` and their checksum form |
| BnbTransfer.BroadcastTransaction | bsc_wallet/bnb_transfer.py:187-225 | a successful send returns its hash; a raised send is reported in the class the classifier assigns to its text |
| BnbTransfer.Submit | bsc_wallet/bnb_transfer.py:306-330 | the first step to fail decides the error: the build's error, the signer's exception, a send exception classified by `broadcast_transaction`, or the watch's timeout; when the build, the signer, the send and (if waiting) the watch all answer, the transfer succeeds; the only transaction signed is the one `create_transaction` builds; on success that transaction was signed with the stripped key, the signed bytes were sent, and the result carries the hash the node gave for them, its explorer link, and confirmation data exactly when waiting was requested |
| BnbTransfer.SendBnb | bsc_wallet/bnb_transfer.py:270-334 | an exception of `Account.from_key` or of the balance read reaches the caller unchanged; a balance below the amount raises before any build, sign or broadcast step, with faucet guidance exactly for a zero balance; past the gate the outcome is settled as for `BnbTransfer.Submit`, so a send failure surfaces classified and a transfer whose every step answers succeeds; every signed value is covered by the balance; on success the sender is the key's account, the one transaction signed is the one built for it, and the result carries the hash the node returned for the signed bytes, the explorer URL, and confirmation data exactly when waiting was requested |
| TokenTransfer.GetTokenContract | bsc_wallet/token_transfer.py:58-85 | an invalid token address is rejected before any contract is built; the contract is at the checksum address |
| TokenTransfer.GetTokenInfo | bsc_wallet/token_transfer.py:87-135 | each of name, symbol, decimals and total supply falls back on its own to "Unknown", "UNK", 18 and 0 when its own call fails |
| TokenTransfer.InfoFieldsIndependent | bsc_wallet/token_transfer.py:102-120 | two nodes that give the same reply for one view call yield the same value for that field, whatever the other three calls do |
| TokenTransfer.GetTokenBalance | bsc_wallet/token_transfer.py:137-181 | succeeds exactly when both addresses are valid and `balanceOf` answers; the token is checked before the wallet, an invalid wallet address is rejected before `balanceOf`, and an exception of `is_address` or of `balanceOf` reaches the caller unchanged; the balance is formatted with the token's decimals, and name, symbol and decimals are those of `get_token_info` |
| TokenTransfer.CreateTokenTransferTransaction | bsc_wallet/token_transfer.py:198-256 | builds a transaction exactly when the three addresses are valid, the nonce read answers and the raw amount lies in the `uint256` range; token, sender and recipient are checked before any gas-price or nonce read; an exception of `is_address` or of the nonce read reaches the caller unchanged; a raw amount outside the range is refused after the nonce read; the transaction calls the token contract with gas 100000, chain id 97, value 0, a fresh nonce and `transfer(recipient, int(amount * 10**decimals))` using the token's reported decimals |
| TokenTransfer.TokenTransactionUsesChecksum | bsc_wallet/token_transfer.py:216-227 | the transaction depends on the three addresses only through `is_address` and their checksum form |
| TokenTransfer.BroadcastTransaction | bsc_wallet/token_transfer.py:284-306 | a raised send is passed through unchanged, with no classification |
| TokenTransfer.TokenGate | bsc_wallet/token_transfer.py:373-384 | the token is read, then the sender's balance, and an error of either reaches the caller unchanged; the gate passes exactly when the balance is not below the amount, otherwise it raises with the available amount and the token symbol; it runs no transfer step, and a passed gate ends with the balance read |
| TokenTransfer.Dispatch | bsc_wallet/token_transfer.py:391-411 | the signer's and the send's exceptions reach the caller unchanged and a timed-out watch gives its timeout of 300; when the signer, the send and (if waiting) the watch all answer, it succeeds; the only transaction signed is the given one, its signed bytes were sent and the hash is the node's answer for them, with the watch's receipt data exactly when waiting was requested |
| TokenTransfer.Submit | bsc_wallet/token_transfer.py:386-414 | the first step to fail decides the error: the build's error, the signer's exception, the send's exception unchanged, or the watch's timeout; when every step answers, the transfer succeeds; the only transaction signed is the one `create_token_transfer_transaction` builds, a transfer of the requested amount in the token's base units; on success it was signed and its signed bytes sent, and the result carries the hash the node gave for them, the address, name and symbol of the token's `get_token_info`, which the caller passes in, and confirmation data exactly when waiting was requested |
| TokenTransfer.SendToken | bsc_wallet/token_transfer.py:351-418 | an exception of `Account.from_key`, of the token read or of the balance read reaches the caller unchanged; a token balance below the amount raises before any build, sign or broadcast step, with the available amount and symbol and no faucet guidance; past the gate the outcome is settled as for `TokenTransfer.Submit`, so a transfer whose every step answers succeeds; a signed transfer never exceeds the balance; on success the sender is the key's account, the one transaction signed is the one built for it, the result carries the hash the node returned for the signed bytes, and its token address, name and symbol are those of the token info |
| BscWallet.ValidateAddress | bsc_wallet/bsc_wallet.py:244-258 | an address is valid exactly when `is_address` answers true; an exception of the check gives false |
| BscWallet.ValidateAgreesWithCheck | bsc_wallet/bsc_wallet.py:254-258 | validation accepts exactly the addresses the operations accept, whatever the role; where the operations would raise from the check, validation answers false |
| BscWallet.PendingBlock | bsc_wallet/bsc_wallet.py:312 | a pending transaction's block number is reported only when it is present and nonzero |
| BscWallet.GetTransactionStatus | bsc_wallet/bsc_wallet.py:282-324 | a receipt gives Success (status 1) or Failed with block and gas; without one, a known transaction is Pending with its block number or none; anything else is Not Found; every report carries the explorer URL |
| BscWallet.StatusAgreesWithWatcher | bsc_wallet/bsc_wallet.py:294-304 | once a receipt is stable, a confirmed watch and the one-shot query agree on status, gas used and block number |
| BscWallet.Collect | bsc_wallet/bsc_wallet.py:156-171 | every key of the gathered balances comes from one of the entries |
| BscWallet.CollectSpec | bsc_wallet/bsc_wallet.py:157-162 | a key is present exactly when some entry under it could be read, and holds the balance of the last such entry; failed reads are skipped |
| BscWallet.BalanceEntries | bsc_wallet/bsc_wallet.py:156-171 | a non-empty address list keys each address by itself; no list or an empty list uses the sample tokens keyed by name |
| BscWallet.GetAllBalances | bsc_wallet/bsc_wallet.py:131-177 | a failed BNB read leaves the BNB balance empty without aborting, and the token balances are those the entries yield |
| BscWallet.CollectKeyedBySelf | bsc_wallet/bsc_wallet.py:156-162 | when every source is keyed by itself, a source is a key exactly when it is listed and its read succeeds, and it maps to that read, whatever the order or repetition of the list |
| BscWallet.CollectSamples | bsc_wallet/bsc_wallet.py:164-171 | over the sample tokens, a name is a key exactly when the read at its address succeeds, and it maps to that read |
| BscWallet.BalancesByAddress | bsc_wallet/bsc_wallet.py:156-162 | with a non-empty list, an address is a key exactly when it was listed and its balance could be read, and it maps to that balance |
| BscWallet.BalancesBySampleName | bsc_wallet/bsc_wallet.py:164-171 | without a non-empty list, a sample name is a key exactly when the balance at its address could be read, and it maps to that balance |
| BscWallet.SampleNamesDistinct | bsc_wallet/config.py:86-89 | the sample tokens have pairwise different names |
| BscWallet.SampleNamesOnly | bsc_wallet/bsc_wallet.py:164-171 | without a non-empty list, no key other than USDT, BUSD or IVP appears |
| WalletGenerator.ValidateMnemonic | bsc_wallet/wallet_generator.py:44-58 | a mnemonic is valid exactly when the checker answers true; an exception of the checker gives false |
| WalletGenerator.DerivationRejectsUncheckedMnemonic | bsc_wallet/wallet_generator.py:72-76 | derivation raises "Invalid mnemonic phrase" exactly when the checker does not answer true, and then derives no seed |
| WalletGenerator.WalkedPath | bsc_wallet/wallet_generator.py:79-82 | derivation walks five levels, with the index as the hardened account and address index 0 |
| WalletGenerator.WalkedPathRendering | bsc_wallet/wallet_generator.py:79-82 | the path walked reads `m/44'/60'/<index>'/0/0` |
| WalletGenerator.ReportedPath | bsc_wallet/wallet_generator.py:99 | the reported path is the account-0 prefix `m/44'/60'/0'/0/` followed by the decimal rendering of the index, from which the index can be read back |
| WalletGenerator.ReportedPathMatchesWalkedOnlyAtZero | bsc_wallet/wallet_generator.py:80-99 | the reported path names the key actually derived exactly when the index is 0 |
| WalletGenerator.ReportedPathIsConfiguredOnlyAtZero | bsc_wallet/wallet_generator.py:99 | the reported path equals the configured `m/44'/60'/0'/0/0` exactly when the index is 0 |
| WalletGenerator.DeriveWalletFromMnemonic | bsc_wallet/wallet_generator.py:60-107 | succeeds exactly when the mnemonic checks and the seed generator, the key derivation and `from_key` all answer; an invalid mnemonic raises "Invalid mnemonic phrase" before any seed derivation; an exception of the seed generator, the derivation or `from_key` reaches the caller unchanged; the record keeps the input mnemonic and holds the hex key, the key's public key and address, and the reported path |
| WalletGenerator.CreateNewWallet | bsc_wallet/wallet_generator.py:109-124 | an exception of mnemonic generation reaches the caller unchanged; otherwise the outcome is exactly that of deriving the generated mnemonic at index 0, so a new wallet's path is the configured one |
| WalletGenerator.ImportWalletFromPrivateKey | bsc_wallet/wallet_generator.py:126-160 | exactly one lower-case "0x" is stripped, the stripped key is stored with its public key and address, and mnemonic and path carry "N/A (imported from private key)" |
| WalletGenerator.ImportIgnoresPrefix | bsc_wallet/wallet_generator.py:137-139 | importing a key with or without its "0x" prefix gives the same record |
| WalletGenerator.ReimportDerivedKey | bsc_wallet/wallet_generator.py:126-152 | importing a derived wallet's private key gives back its key, public key and address, with the import markers in place of mnemonic and path |

## Left out

- Binary floating point: balances, formatted amounts and `amount * 10**decimals` are exact reals here. The source's float gates and truncations can differ from these by rounding.
- `to_wei` internals: `to_wei` is part of web3, not of this repository, and is modelled from its documented behaviour. BNB amounts become wei by the same exact truncation as token amounts, not through the decimal text of a float. Its range test on the exact amount, and the `uint256` check of the token `transfer` call on the truncated raw amount, are modelled as `AmountOutOfRange` carrying the requested amount; the exception texts of web3 are not.
- Lower-casing covers ASCII letters only. Python's full Unicode `str.lower()` is not modelled.
- The `abi` parameter of the token operations is left out. The standard ERC-20 ABI is always used, and a `TokenContract` stands for any contract the node answers for.
- The chain node is one fixed snapshot per operation, so repeated reads within an operation agree. Concurrent changes between reads, such as a nonce race, are not modelled. Receipts seen by successive polls of the watcher are indexed by poll.
- Real time and `time.sleep` are an abstract clock. `confirmationTime` is the clock's reading when the receipt arrives, not a float difference of wall-clock times.
- Watcher.Watch: the token module's copy of the watcher is not a separate member. It differs from the BNB copy only in log and timeout message texts.
- The BIP-39 wordlist and checksum, PBKDF2 seeds, BIP-32 child derivation, secp256k1 keys, keccak, EIP-55 casing, EIP-155 signing, RLP and ERC-20 ABI encoding are oracles, not models. The seed generator may raise, as `Bip39SeedGenerator` does when it checks the mnemonic again.
- Mnemonic generation takes its entropy as a parameter. The strength checks of the `mnemonic` library are inside the oracle.
- WalletGenerator.DeriveWalletFromMnemonic: the account index is a natural number. A negative index, which `bip_utils` rejects, is not modelled.
- Logging, the text of the faucet guidance (a flag here) and the exact messages of address errors (a role here) are left out.
- The constructors (connection checks, POA middleware), `get_network_info`, and the facade methods that only delegate are left out. The operations they delegate to are modelled.
- The dictionaries returned by `get_transaction_status` sometimes omit a key and sometimes map it to None. Both become `None` here.

=== FILE: base.dfy ===
/** Small wrapper types shared by every module of the model. */
module Base {

  /** Python's `None` or a value. */
  datatype Option<+T> = None | Some(value: T)

  /** What a call into an external collaborator (the chain node, eth_account, the mnemonic or
      BIP-32 libraries) hands back: a value, or an exception carrying its message text. */
  datatype Reply<+T> = Value(value: T) | Raised(message: string)
}

=== FILE: bnb_transfer.dfy ===
/** Native BNB transfers: balance read, transaction assembly, broadcast with error
    classification, and the `send_bnb` pipeline with its balance gate. */
module BnbTransfer {
  import opened Base
  import opened Errors
  import opened Text
  import opened Config
  import opened Units
  import opened Collaborators
  import opened Transfers
  import Broadcast
  import opened Watcher

  /** The dictionary `get_balance` returns; `bnb` is the wei balance in BNB. */
  datatype BnbBalance = BnbBalance(address: string, wei: nat, bnb: real)

  /** `get_balance`: validates the address, then reads the balance of its checksum form. */
  function GetBalance(node: Node, address: string): (r: Traced<BnbBalance>)
    ensures node.isAddress(address) != Value(true) ==> r.result.Err? && r.log == []
    ensures node.isAddress(address) == Value(true) ==> r.log == [BalanceRead(node.toChecksum(address))]
    ensures r.result.Ok? <==>
              node.isAddress(address) == Value(true) && node.getBalance(node.toChecksum(address)).Value?
    ensures node.isAddress(address) == Value(false) ==> r.result == Err(InvalidAddress(Plain))
    ensures node.isAddress(address).Raised? ==> r.result == Err(Propagated(node.isAddress(address).message))
    ensures (node.isAddress(address) == Value(true) && node.getBalance(node.toChecksum(address)).Raised?)
              ==> r.result == Err(Propagated(node.getBalance(node.toChecksum(address)).message))
    ensures r.result.Ok? ==> var b := r.result.value;
              && b.address == node.toChecksum(address)
              && node.getBalance(b.address) == Value(b.wei)
              && b.bnb * UnitScale(NativeDecimals) == b.wei as real
  {
    match CheckAddress(node, address, Plain)
    case Err(e) => Traced(Err(e), [])
    case Ok(checksum) =>
      var calls := [BalanceRead(checksum)];
      match node.getBalance(checksum)
      case Raised(m) => Traced(Err(Propagated(m)), calls)
      case Value(wei) =>
        Traced(Ok(BnbBalance(checksum, wei, FromBaseUnits(wei, NativeDecimals))), calls)
  }

  /** `create_transaction`: both addresses are checked and the amount converted to wei
      before the node is asked for anything; `to_wei` refuses an amount whose exact value
      in wei lies outside the `uint256` range, so every negative amount; the nonce is read
      afresh for this transaction. */
  function CreateTransaction(node: Node, from: string, to: string, amountBnb: real, gasPrice: Option<nat>)
    : (r: Traced<UnsignedTx>)
    ensures (node.isAddress(from) != Value(true) || node.isAddress(to) != Value(true))
              ==> r.result.Err? && r.log == []
    ensures node.isAddress(from) == Value(false) ==> r.result == Err(InvalidAddress(From))
    ensures (node.isAddress(from) == Value(true) && node.isAddress(to) == Value(false))
              ==> r.result == Err(InvalidAddress(To))
    ensures (node.isAddress(from) == Value(true) && node.isAddress(to) == Value(true)
             && !ScaledInUint256(amountBnb, NativeDecimals))
              ==> r.result == Err(AmountOutOfRange(amountBnb)) && r.log == []
    ensures node.isAddress(from).Raised? ==> r.result == Err(Propagated(node.isAddress(from).message))
    ensures (node.isAddress(from) == Value(true) && node.isAddress(to).Raised?)
              ==> r.result == Err(Propagated(node.isAddress(to).message))
    ensures r.result.Ok? <==>
              && node.isAddress(from) == Value(true)
              && node.isAddress(to) == Value(true)
              && ScaledInUint256(amountBnb, NativeDecimals)
              && node.getTransactionCount(node.toChecksum(from)).Value?
    ensures (node.isAddress(from) == Value(true) && node.isAddress(to) == Value(true)
             && ScaledInUint256(amountBnb, NativeDecimals) && node.getTransactionCount(node.toChecksum(from)).Raised?)
              ==> r.result == Err(Propagated(node.getTransactionCount(node.toChecksum(from)).message))
                  && r.log == GasPriceReads(gasPrice) + [NonceRead(node.toChecksum(from))]
    ensures r.result.Ok? ==> var tx := r.result.value;
              && 0.0 <= amountBnb
              && InUint256(tx.value)
              && tx.to == node.toChecksum(to)
              && tx.gas == 21000
              && tx.chainId == 97
              && tx.data == NoData
              && tx.value == ToBaseUnits(amountBnb, NativeDecimals)
              && node.getTransactionCount(node.toChecksum(from)) == Value(tx.nonce)
              && tx.gasPrice == ResolveGasPrice(node, gasPrice)
    ensures r.result.Ok? ==> r.log == GasPriceReads(gasPrice) + [NonceRead(node.toChecksum(from))]
  {
    match CheckAddress(node, from, From)
    case Err(e) => Traced(Err(e), [])
    case Ok(fromChecksum) =>
      match CheckAddress(node, to, To)
      case Err(e) => Traced(Err(e), [])
      case Ok(toChecksum) =>
        if !ScaledInUint256(amountBnb, NativeDecimals) then Traced(Err(AmountOutOfRange(amountBnb)), []) else
        ScaledInUint256Cases(amountBnb, NativeDecimals);
        var wei := ToBaseUnits(amountBnb, NativeDecimals);
        var price := ResolveGasPrice(node, gasPrice);
        var calls := GasPriceReads(gasPrice) + [NonceRead(fromChecksum)];
        match node.getTransactionCount(fromChecksum)
        case Raised(m) => Traced(Err(Propagated(m)), calls)
        case Value(nonce) =>
          Traced(Ok(UnsignedTx(nonce, toChecksum, wei, DefaultGasLimit, price, ChainId, NoData)), calls)
  }

  /** The transaction depends on the two addresses only through the answer of `is_address`
      and their checksum form: the same addresses written differently build the same
      transaction, or fail the same way. */
  lemma TransactionUsesChecksum(node: Node, from: string, from': string, to: string, to': string,
                                amountBnb: real, gasPrice: Option<nat>)
    requires node.isAddress(from) == node.isAddress(from') && node.toChecksum(from) == node.toChecksum(from')
    requires node.isAddress(to) == node.isAddress(to') && node.toChecksum(to) == node.toChecksum(to')
    ensures CreateTransaction(node, from, to, amountBnb, gasPrice) == CreateTransaction(node, from', to', amountBnb, gasPrice)
  {
  }

  /** `broadcast_transaction`: a raised send is classified into the broadcast taxonomy. */
  function BroadcastTransaction(node: Node, raw: string): (r: Traced<string>)
    ensures r.log == [SendRaw(raw)]
    ensures node.sendRawTransaction(raw).Value? ==> r.result == Ok(node.sendRawTransaction(raw).value)
    ensures node.sendRawTransaction(raw).Raised? ==>
              r.result == Err(Failure.Broadcast(Broadcast.Classify(node.sendRawTransaction(raw).message)))
  {
    match node.sendRawTransaction(raw)
    case Value(txHash) => Traced(Ok(txHash), [SendRaw(raw)])
    case Raised(m) => Traced(Err(Failure.Broadcast(Broadcast.Classify(m))), [SendRaw(raw)])
  }

  /** The dictionary `send_bnb` returns; the confirmation fields are merged in only when
      the caller asked to wait. */
  datatype BnbSent = BnbSent(
    txHash: string,
    fromAddress: string,
    toAddress: string,
    amountBnb: real,
    explorerUrl: string,
    confirmation: Option<Confirmation>)

  /** The wei balance the gate of `send_bnb` sees, when the key and the balance read succeed. */
  function SenderWei(node: Node, keys: Keys, privateKey: string): Option<nat> {
    match keys.fromKey(privateKey)
    case Raised(_) => None
    case Value(account) =>
      var balance := GetBalance(node, account.address);
      if balance.result.Ok? then Some(balance.result.value.wei) else None
  }

  /** How `send_bnb` reports an exception of the send: through `broadcast_transaction`'s
      classification. */
  function SendFailure(message: string): (f: Failure)
    ensures f.Broadcast?
  {
    Failure.Broadcast(Broadcast.Classify(message))
  }

  /** The part of `send_bnb` after the gate: build, sign, broadcast and optionally wait.
      The only transaction signed is the one `create_transaction` builds, and a success
      carries the hash the node gave for its signed bytes. */
  method Submit(node: Node, keys: Keys, clock: Clock, privateKey: string, from: string, to: string,
                amountBnb: real, wait: bool)
    returns (r: Traced<BnbSent>)
    requires Ticks(clock)
    ensures forall tx :: Signing(tx) in r.log ==> CreateTransaction(node, from, to, amountBnb, None).result == Ok(tx)
    ensures Settles(node, keys, clock, privateKey, CreateTransaction(node, from, to, amountBnb, None).result,
                    SendFailure, wait, r.result)
    ensures r.result.Ok? ==>
              var created := CreateTransaction(node, from, to, amountBnb, None);
              var sent := r.result.value;
              && created.result.Ok?
              && SignedAndSent(node, keys, privateKey, created.result.value, sent.txHash, r.log)
              && sent.fromAddress == from
              && sent.toAddress == to
              && sent.amountBnb == amountBnb
              && sent.explorerUrl == ExplorerTxUrl(sent.txHash)
              && (sent.confirmation.Some? <==> wait)
              && (wait ==> Outcome(sent.txHash, DefaultTimeout, node.poll, clock, 0).result == Ok(sent.confirmation.value))
    ensures r.result.Err? ==> !r.result.error.InsufficientBalance? && !r.result.error.InsufficientTokenBalance?
    ensures r.result.Err? && r.result.error.ConfirmationTimeout? ==> wait && r.result.error.timeout == 300
  {
    var created := CreateTransaction(node, from, to, amountBnb, None);
    var log := created.log;
    if created.result.Err? {
      return Traced(Err(created.result.error), log);
    }
    var tx := created.result.value;

    var signed := SignTransaction(keys, tx, privateKey);
    log := log + signed.log;
    if signed.result.Err? {
      return Traced(Err(signed.result.error), log);
    }

    var sent := BroadcastTransaction(node, signed.result.value);
    log := log + sent.log;
    if sent.result.Err? {
      return Traced(Err(sent.result.error), log);
    }
    var txHash := sent.result.value;
    var result := BnbSent(txHash, from, to, amountBnb, ExplorerTxUrl(txHash), None);

    if wait {
      log := log + [ConfirmationWait(txHash)];
      var confirmation, _ := Watch(txHash, DefaultTimeout, node.poll, clock);
      if confirmation.Err? {
        return Traced(Err(confirmation.error), log);
      }
      result := result.(confirmation := Some(confirmation.value));
    }
    return Traced(Ok(result), log);
  }

  /** `send_bnb`: derive the sender, gate on its balance, then build, sign, broadcast and
      optionally wait for the receipt with the default timeout. */
  method SendBnb(node: Node, keys: Keys, clock: Clock, privateKey: string, to: string, amountBnb: real,
                 wait: bool)
    returns (r: Traced<BnbSent>)
    requires Ticks(clock)
    ensures (SenderWei(node, keys, privateKey).Some? && Below(SenderWei(node, keys, privateKey).value, NativeDecimals, amountBnb))
              ==> var wei := SenderWei(node, keys, privateKey).value;
                  && r.result == Err(InsufficientBalance(FromBaseUnits(wei, NativeDecimals), amountBnb, wei == 0))
                  && NoTransferSteps(r.log)
    ensures keys.fromKey(privateKey).Raised? ==> r.result == Err(Propagated(keys.fromKey(privateKey).message)) && r.log == []
    ensures keys.fromKey(privateKey).Value? ==>
              var from := keys.fromKey(privateKey).value.address;
              var balance := GetBalance(node, from);
              && (balance.result.Err? ==> r.result == Err(balance.result.error) && r.log == balance.log)
              && (balance.result.Ok? && !Below(balance.result.value.wei, NativeDecimals, amountBnb)
                  ==> Settles(node, keys, clock, privateKey, CreateTransaction(node, from, to, amountBnb, None).result,
                              SendFailure, wait, r.result))
    ensures r.result.Err? && r.result.error.InsufficientBalance? ==> (r.result.error.faucetGuidance <==> SenderWei(node, keys, privateKey) == Some(0))
    ensures r.result.Ok? ==> SenderWei(node, keys, privateKey).Some?
                             && !Below(SenderWei(node, keys, privateKey).value, NativeDecimals, amountBnb)
    ensures GatedLog(r.log)
    ensures forall tx :: Signing(tx) in r.log ==> SenderWei(node, keys, privateKey).Some?
                                                  && tx.value <= SenderWei(node, keys, privateKey).value
    ensures r.result.Ok? ==>
              && keys.fromKey(privateKey).Value?
              && var from := keys.fromKey(privateKey).value.address;
                 var created := CreateTransaction(node, from, to, amountBnb, None);
                 var sent := r.result.value;
                 && created.result.Ok?
                 && SignedAndSent(node, keys, privateKey, created.result.value, sent.txHash, r.log)
                 && (forall tx :: Signing(tx) in r.log ==> tx == created.result.value)
                 && sent.fromAddress == from
                 && sent.toAddress == to
                 && sent.amountBnb == amountBnb
                 && sent.explorerUrl == ExplorerTxUrl(sent.txHash)
                 && (sent.confirmation.Some? <==> wait)
                 && (wait ==> Outcome(sent.txHash, DefaultTimeout, node.poll, clock, 0).result == Ok(sent.confirmation.value))
    ensures r.result.Err? && r.result.error.ConfirmationTimeout? ==> wait && r.result.error.timeout == 300
  {
    var account;
    match keys.fromKey(privateKey) {
      case Raised(m) =>
        return Traced(Err(Propagated(m)), []);
      case Value(a) =>
        account := a;
    }
    var from := account.address;

    var balance := GetBalance(node, from);
    if balance.result.Err? {
      return Traced(Err(balance.result.error), balance.log);
    }
    var wei := balance.result.value.wei;
    if Below(wei, NativeDecimals, amountBnb) {
      ZeroBalance(wei, NativeDecimals);
      var available := FromBaseUnits(wei, NativeDecimals);
      return Traced(Err(InsufficientBalance(available, amountBnb, available == 0.0)), balance.log);
    }
    var gate := balance.log;
    assert gate == [BalanceRead(node.toChecksum(from))];
    GatePassedCoversTransfer(wei, NativeDecimals, amountBnb);

    var submitted := Submit(node, keys, clock, privateKey, from, to, amountBnb, wait);
    GatedAfterRead(gate, submitted.log, 0);
    return Traced(submitted.result, gate + submitted.log);
  }
}

=== FILE: broadcast.dfy ===
/** Classification of a failed `send_raw_transaction` of a native transfer.

    The exception text is lower-cased and tested against a fixed list of substrings in a
    fixed order; the first pattern that occurs decides the class, and a message that
    matches nothing is reported with its original, un-lower-cased text. */
module Broadcast {
  import opened Text
  import opened Errors

  const InsufficientFundsPattern: string := "insufficient funds"
  const NonceTooLowPattern: string := "nonce too low"
  const NonceTooHighPattern: string := "nonce too high"
  const GasPriceTooLowPattern: string := "gas price too low"
  const IntrinsicGasTooLowPattern: string := "intrinsic gas too low"
  const ConnectionPattern: string := "connection"
  const TimeoutPattern: string := "timeout"

  /** The lower-cased message matches the `rank`-th test of the chain (0 to 5). */
  ghost predicate MatchesTest(lowered: string, rank: nat) {
    match rank
    case 0 => Occurs(lowered, InsufficientFundsPattern)
    case 1 => Occurs(lowered, NonceTooLowPattern)
    case 2 => Occurs(lowered, NonceTooHighPattern)
    case 3 => Occurs(lowered, GasPriceTooLowPattern)
    case 4 => Occurs(lowered, IntrinsicGasTooLowPattern)
    case 5 => Occurs(lowered, ConnectionPattern) || Occurs(lowered, TimeoutPattern)
    case _ => false
  }

  /** The position in the test chain of the test that yields `e`; 6 for the fallback. */
  function Rank(e: BroadcastError): nat {
    match e
    case InsufficientFunds => 0
    case NonceTooLow => 1
    case NonceTooHigh => 2
    case GasPriceTooLow => 3
    case IntrinsicGasTooLow => 4
    case NetworkUnavailable => 5
    case BroadcastFailed(_) => 6
  }

  /** The first-match rule: the class chosen is the one of the first test that matches;
      the fallback is chosen exactly when no test matches, and keeps the message as given. */
  function Classify(message: string): (e: BroadcastError)
    ensures MatchesTest(Lower(message), Rank(e)) || e == BroadcastFailed(message)
    ensures forall rank :: 0 <= rank < Rank(e) ==> !MatchesTest(Lower(message), rank)
  {
    var lowered := Lower(message);
    if Contains(lowered, InsufficientFundsPattern) then InsufficientFunds
    else if Contains(lowered, NonceTooLowPattern) then NonceTooLow
    else if Contains(lowered, NonceTooHighPattern) then NonceTooHigh
    else if Contains(lowered, GasPriceTooLowPattern) then GasPriceTooLow
    else if Contains(lowered, IntrinsicGasTooLowPattern) then IntrinsicGasTooLow
    else if Contains(lowered, ConnectionPattern) || Contains(lowered, TimeoutPattern) then NetworkUnavailable
    else BroadcastFailed(message)
  }

  /** Whenever a test matches, the class chosen comes from that test or an earlier one. */
  lemma FirstMatchWins(message: string, rank: nat)
    requires MatchesTest(Lower(message), rank)
    ensures Rank(Classify(message)) <= rank
  {
  }

  /** A message naming both a shortfall of funds and a timeout is a shortfall of funds. */
  lemma FundsBeforeTimeout(message: string)
    requires Occurs(Lower(message), InsufficientFundsPattern)
    requires Occurs(Lower(message), TimeoutPattern)
    ensures Classify(message) == InsufficientFunds
  {
    FirstMatchWins(message, 0);
  }

  /** The tests ignore case: a message and its lower-cased form fall in the same class. */
  lemma ClassifyIgnoresCase(message: string)
    ensures Rank(Classify(message)) == Rank(Classify(Lower(message)))
  {
    LowerIdempotent(message);
  }

  /** A node that reports its error in capitals is still understood. */
  lemma UpperCaseRecognised(message: string)
    requires Occurs(message, "INSUFFICIENT FUNDS")
    ensures Classify(message) == InsufficientFunds
  {
    OccursLower(message, "INSUFFICIENT FUNDS");
    assert Lower("INSUFFICIENT FUNDS") == InsufficientFundsPattern;
    FirstMatchWins(message, 0);
  }

  /** The text that opens the fallback message, in front of the node's own text. */
  const FallbackPrefix: string := "Transaction broadcast failed: "

  /** The words before the colon of the text raised for a class of its own. */
  function Headline(e: BroadcastError): (headline: string)
    requires !e.BroadcastFailed?
    ensures |headline| > 0 && headline[0] != FallbackPrefix[0]
  {
    assert FallbackPrefix[0] == 'T';
    match e
    case InsufficientFunds => "Insufficient funds"
    case NonceTooLow => "Nonce too low"
    case NonceTooHigh => "Nonce too high"
    case GasPriceTooLow => "Gas price too low"
    case IntrinsicGasTooLow => "Gas limit too low"
    case NetworkUnavailable => "Network connection issue"
  }

  /** The advice after the colon of the text raised for a class of its own. */
  function Advice(e: BroadcastError): string
    requires !e.BroadcastFailed?
  {
    match e
    case InsufficientFunds =>
      "Your wallet doesn't have enough BNB to cover the transaction amount plus gas fees."
    case NonceTooLow =>
      "This transaction has already been processed or there's a nonce conflict."
    case NonceTooHigh =>
      "Transaction nonce is higher than expected. Try again in a few seconds."
    case GasPriceTooLow =>
      "Current network gas price is higher than specified. Try increasing the gas price."
    case IntrinsicGasTooLow =>
      "The transaction requires more gas than specified."
    case NetworkUnavailable =>
      "Unable to broadcast transaction. Check your internet connection or try a different RPC endpoint."
  }

  /** The ValueError/ConnectionError text the broadcaster raises for each class: only the
      fallback opens with the fallback prefix, and the node's text follows it unchanged. */
  function Message(e: BroadcastError): (text: string)
    ensures StartsWith(text, FallbackPrefix) <==> e.BroadcastFailed?
    ensures e.BroadcastFailed? ==> text[|FallbackPrefix|..] == e.original
  {
    if e.BroadcastFailed? then FallbackPrefix + e.original
    else
      var headline := Headline(e);
      var text := headline + ": " + Advice(e);
      assert text[0] == headline[0];
      text
  }

  /** Only the connectivity class surfaces as a ConnectionError; every other class,
      the fallback included, is a ValueError. */
  lemma ExceptionClassOfBroadcast(message: string)
    ensures ClassOf(Broadcast(Classify(message))) == ConnectionError
        <==> (!MatchesTest(Lower(message), 0) && !MatchesTest(Lower(message), 1)
              && !MatchesTest(Lower(message), 2) && !MatchesTest(Lower(message), 3)
              && !MatchesTest(Lower(message), 4) && MatchesTest(Lower(message), 5))
    ensures ClassOf(Broadcast(Classify(message))) != ConnectionError
        ==> ClassOf(Broadcast(Classify(message))) == ValueError
  {
    var e := Classify(message);
    if !MatchesTest(Lower(message), 0) && !MatchesTest(Lower(message), 1)
       && !MatchesTest(Lower(message), 2) && !MatchesTest(Lower(message), 3)
       && !MatchesTest(Lower(message), 4) && MatchesTest(Lower(message), 5) {
      FirstMatchWins(message, 5);
    }
  }

  /** A message no test matches is reported after a fixed prefix, exactly as given. */
  lemma UnmatchedKeepsOriginal(message: string)
    requires forall rank :: 0 <= rank <= 5 ==> !MatchesTest(Lower(message), rank)
    ensures Message(Classify(message)) == "Transaction broadcast failed: " + message
  {
    var e := Classify(message);
    assert MatchesTest(Lower(message), Rank(e)) || e == BroadcastFailed(message);
  }
}

=== FILE: bsc_wallet.dfy ===
/** The wallet facade: address validation that never raises, the one-shot transaction
    status query, and the aggregation of all balances of a wallet. */
module BscWallet {
  import opened Base
  import opened Errors
  import opened Config
  import opened Collaborators
  import opened Transfers
  import opened Watcher
  import BnbTransfer
  import TokenTransfer

  /** `validate_address`: true exactly when `is_address` answers true; an exception of the
      check becomes false. */
  function ValidateAddress(node: Node, address: string): (valid: bool)
    ensures valid <==> node.isAddress(address) == Value(true)
    ensures node.isAddress(address).Raised? ==> !valid
  {
    match node.isAddress(address)
    case Value(b) => b
    case Raised(_) => false
  }

  /** The address an operation accepts is exactly the address `validate_address` calls
      valid, whatever the argument's role; where it is rejected, the outcome differs only in
      that validation answers false instead of raising. */
  lemma ValidateAgreesWithCheck(node: Node, address: string, role: AddressRole)
    ensures ValidateAddress(node, address) <==> CheckAddress(node, address, role).Ok?
    ensures !ValidateAddress(node, address) && node.isAddress(address).Raised? ==>
              CheckAddress(node, address, role) == Err(Propagated(node.isAddress(address).message))
  {
  }

  /** The dictionary `get_transaction_status` returns; an absent key and a None value are
      both `None`. */
  datatype StatusReport = StatusReport(
    txHash: string,
    status: TxStatus,
    blockNumber: Option<nat>,
    gasUsed: Option<nat>,
    explorerUrl: string)

  /** `tx.blockNumber if tx.blockNumber else None`: block 0 is falsy in Python and so reads
      as None, like a missing block. */
  function PendingBlock(b: Option<nat>): (r: Option<nat>)
    ensures r.Some? <==> b.Some? && b.value != 0
    ensures r.Some? ==> r == b
  {
    if b.Some? && b.value != 0 then b else None
  }

  /** `get_transaction_status`: a receipt gives Success or Failed; without one (the lookup
      raised, or it returned nothing and reading its status raised) a known transaction is
      Pending; anything else is Not Found. The query itself never raises. */
  function GetTransactionStatus(node: Node, txHash: string): (report: StatusReport)
    ensures report.txHash == txHash && report.explorerUrl == ExplorerTxUrl(txHash)
    ensures (report.status == Success || report.status == Failed) <==> node.receipt(txHash).Mined?
    ensures report.status == Pending <==> !node.receipt(txHash).Mined? && node.transaction(txHash).Known?
    ensures report.status == NotFound <==> !node.receipt(txHash).Mined? && !node.transaction(txHash).Known?
    ensures node.receipt(txHash).Mined? ==>
              var receipt := node.receipt(txHash).receipt;
              && (report.status == Success <==> receipt.status == 1)
              && report.blockNumber == Some(receipt.blockNumber)
              && report.gasUsed == Some(receipt.gasUsed)
    ensures report.status == Pending ==>
              report.blockNumber == PendingBlock(node.transaction(txHash).blockNumber) && report.gasUsed.None?
    ensures report.status == NotFound ==> report.blockNumber.None? && report.gasUsed.None?
  {
    var url := ExplorerTxUrl(txHash);
    match node.receipt(txHash)
    case Mined(receipt) =>
      StatusReport(txHash, ReceiptStatus(receipt), Some(receipt.blockNumber), Some(receipt.gasUsed), url)
    case _ =>
      match node.transaction(txHash)
      case Known(b) => StatusReport(txHash, Pending, PendingBlock(b), None, url)
      case _ => StatusReport(txHash, NotFound, None, None, url)
  }

  /** Once a receipt is there it stays the same for every later poll and for the one-shot
      query; a watch that confirmed then agrees with the status query on status, gas and
      block. */
  lemma StatusAgreesWithWatcher(node: Node, txHash: string, timeout: int, clock: Clock)
    requires Ticks(clock)
    requires forall k: nat :: node.poll(txHash, k).Mined? ==> node.poll(txHash, k) == node.receipt(txHash)
    requires Outcome(txHash, timeout, node.poll, clock, 0).result.Ok?
    ensures var c := Outcome(txHash, timeout, node.poll, clock, 0).result.value;
            var report := GetTransactionStatus(node, txHash);
            && report.status == c.status
            && report.gasUsed == Some(c.gasUsed)
            && report.blockNumber == Some(c.blockNumber)
  {
    OutcomeCases(txHash, timeout, node.poll, clock, 0);
  }

  /** The dictionary `get_all_balances` returns. */
  datatype AllBalances = AllBalances(
    walletAddress: string,
    bnbBalance: Option<BnbTransfer.BnbBalance>,
    tokenBalances: map<string, TokenTransfer.TokenBalance>)

  /** The token balance of `wallet` in the token at `token`, when it can be read. */
  function TokenBalanceOf(node: Node, token: string, wallet: string): Option<TokenTransfer.TokenBalance> {
    var read := TokenTransfer.GetTokenBalance(node, token, wallet);
    if read.result.Ok? then Some(read.result.value) else None
  }

  /** The token balances of `wallet`, as a function of the token address. */
  function TokenReader(node: Node, wallet: string): string -> Option<TokenTransfer.TokenBalance> {
    token => TokenBalanceOf(node, token, wallet)
  }

  /** The values `read` yields for `(key, source)` entries, gathered in order: a read that
      fails leaves the map as it was, and a later key overwrites an earlier one. */
  function Collect<V>(read: string -> Option<V>, entries: seq<(string, string)>): (gathered: map<string, V>)
    ensures forall key :: key in gathered ==> exists i :: 0 <= i < |entries| && entries[i].0 == key
    decreases |entries|
  {
    if entries == [] then map[]
    else
      var earlier := Collect(read, entries[..|entries| - 1]);
      var (key, source) := entries[|entries| - 1];
      match read(source)
      case Some(v) => earlier[key := v]
      case None => earlier
  }

  /** The i-th entry has key `key` and its read succeeds. */
  ghost predicate ReadUnder<V>(read: string -> Option<V>, entries: seq<(string, string)>, key: string, i: int) {
    0 <= i < |entries| && entries[i].0 == key && read(entries[i].1).Some?
  }

  /** The i-th entry is the last one under `key` whose read succeeds. */
  ghost predicate LastReadUnder<V>(read: string -> Option<V>, entries: seq<(string, string)>, key: string, i: int) {
    && ReadUnder(read, entries, key, i)
    && forall j :: i < j < |entries| ==> !ReadUnder(read, entries, key, j)
  }

  /** A key is in the gathered map exactly when the read of some entry under it succeeds,
      and its value is that of the last such entry: later entries win, failed reads are
      skipped. */
  lemma {:induction false} CollectSpec<V>(read: string -> Option<V>, entries: seq<(string, string)>, key: string)
    ensures key in Collect(read, entries) <==> exists i :: ReadUnder(read, entries, key, i)
    ensures key in Collect(read, entries) ==>
              exists i :: LastReadUnder(read, entries, key, i) && read(entries[i].1) == Some(Collect(read, entries)[key])
    decreases |entries|
  {
    if entries != [] {
      var n := |entries| - 1;
      var prefix := entries[..n];
      CollectSpec(read, prefix, key);
      forall i | 0 <= i < n
        ensures ReadUnder(read, entries, key, i) <==> ReadUnder(read, prefix, key, i)
      {
        assert entries[i] == prefix[i];
      }
      if ReadUnder(read, entries, key, n) {
        assert LastReadUnder(read, entries, key, n);
      } else if key in Collect(read, entries) {
        var i :| LastReadUnder(read, prefix, key, i) && read(prefix[i].1) == Some(Collect(read, prefix)[key]);
        assert LastReadUnder(read, entries, key, i);
      }
    }
  }

  /** The entries `get_all_balances` reads: each given address keyed by itself when the list
      is non-empty, otherwise the sample tokens keyed by name. */
  function BalanceEntries(tokens: Option<seq<string>>): (entries: seq<(string, string)>)
    ensures tokens.Some? && tokens.value != [] ==>
              |entries| == |tokens.value| && forall i :: 0 <= i < |entries| ==> entries[i] == (tokens.value[i], tokens.value[i])
    ensures tokens.None? || tokens.value == [] ==> entries == SampleTokens
  {
    if tokens.Some? && tokens.value != [] then seq(|tokens.value|, i requires 0 <= i < |tokens.value| => (tokens.value[i], tokens.value[i]))
    else SampleTokens
  }

  /** `get_all_balances`: every read is attempted and no failure aborts the aggregation. */
  function GetAllBalances(node: Node, wallet: string, tokens: Option<seq<string>>): (all: AllBalances)
    ensures all.walletAddress == wallet
    ensures all.bnbBalance.Some? <==> BnbTransfer.GetBalance(node, wallet).result.Ok?
    ensures all.bnbBalance.Some? ==> all.bnbBalance.value == BnbTransfer.GetBalance(node, wallet).result.value
    ensures all.tokenBalances == Collect(TokenReader(node, wallet), BalanceEntries(tokens))
  {
    var bnb := BnbTransfer.GetBalance(node, wallet);
    AllBalances(wallet, if bnb.result.Ok? then Some(bnb.result.value) else None,
                Collect(TokenReader(node, wallet), BalanceEntries(tokens)))
  }

  /** Entries that key each source by itself gather, for every source, exactly its
      successful read. */
  lemma CollectKeyedBySelf<V>(read: string -> Option<V>, sources: seq<string>, a: string)
    requires sources != []
    ensures var gathered := Collect(read, BalanceEntries(Some(sources)));
            && (a in gathered <==> a in sources && read(a).Some?)
            && (a in gathered ==> read(a) == Some(gathered[a]))
  {
    var entries := BalanceEntries(Some(sources));
    CollectSpec(read, entries, a);
    if a in sources {
      var i :| 0 <= i < |sources| && sources[i] == a;
      assert entries[i] == (a, a);
      if read(a).Some? {
        assert ReadUnder(read, entries, a, i);
      }
    }
  }

  /** Over the sample tokens, each name gathers exactly the successful read of its address. */
  lemma CollectSamples<V>(read: string -> Option<V>, i: nat)
    requires i < |SampleTokens|
    ensures var gathered := Collect(read, SampleTokens);
            var (name, address) := SampleTokens[i];
            && (name in gathered <==> read(address).Some?)
            && (name in gathered ==> read(address) == Some(gathered[name]))
  {
    var name := SampleTokens[i].0;
    CollectSpec(read, SampleTokens, name);
    if read(SampleTokens[i].1).Some? {
      assert ReadUnder(read, SampleTokens, name, i);
    }
    SampleNamesDistinct();
  }

  /** With a non-empty address list, the token balances are keyed by address: an address is
      a key exactly when it was listed and its balance could be read, and its value is that
      balance. */
  lemma BalancesByAddress(node: Node, wallet: string, tokens: seq<string>, a: string)
    requires tokens != []
    ensures var balances := GetAllBalances(node, wallet, Some(tokens)).tokenBalances;
            && (a in balances <==> a in tokens && TokenReader(node, wallet)(a).Some?)
            && (a in balances ==> TokenReader(node, wallet)(a) == Some(balances[a]))
  {
    CollectKeyedBySelf(TokenReader(node, wallet), tokens, a);
  }

  /** Without a non-empty list, the token balances are keyed by sample token name: a name is
      a key exactly when the balance of its sample address could be read. */
  lemma BalancesBySampleName(node: Node, wallet: string, tokens: Option<seq<string>>, i: nat)
    requires tokens.None? || tokens.value == []
    requires i < |SampleTokens|
    ensures var balances := GetAllBalances(node, wallet, tokens).tokenBalances;
            var (name, address) := SampleTokens[i];
            && (name in balances <==> TokenReader(node, wallet)(address).Some?)
            && (name in balances ==> TokenReader(node, wallet)(address) == Some(balances[name]))
  {
    CollectSamples(TokenReader(node, wallet), i);
  }

  /** The sample tokens have pairwise different names. */
  lemma SampleNamesDistinct()
    ensures forall j, k :: 0 <= j < k < |SampleTokens| ==> SampleTokens[j].0 != SampleTokens[k].0
  {
    assert SampleTokens[0].0 == "USDT" && SampleTokens[1].0 == "BUSD" && SampleTokens[2].0 == "IVP";
    assert "USDT"[0] != "BUSD"[0] && "USDT"[0] != "IVP"[0] && "BUSD"[0] != "IVP"[0];
  }

  /** Without a non-empty list, no key other than a sample token name appears. */
  lemma SampleNamesOnly(node: Node, wallet: string, tokens: Option<seq<string>>)
    requires tokens.None? || tokens.value == []
    ensures GetAllBalances(node, wallet, tokens).tokenBalances.Keys <= {"USDT", "BUSD", "IVP"}
  {
  }
}

=== FILE: collaborators.dfy ===
/** The surface of the external collaborators, as deterministic oracles.

    The chain node (web3 over JSON-RPC), eth_account, the BIP-39 `mnemonic` library and
    `bip_utils` are not modelled internally: each is a total function from its arguments to a
    `Reply`. A `Node` value is one snapshot of the chain as seen by one operation; receipts
    seen by successive polls of the confirmation watcher are indexed by poll number.
    Every operation also returns the log of the collaborator calls it made, in order, so
    that "X happens before Y" can be stated about the model. */
module Collaborators {
  import opened Base
  import opened Errors

  /** The fields of a mined transaction's receipt the wallet reads. */
  datatype Receipt = Receipt(status: int, gasUsed: nat, blockNumber: nat)

  /** One `get_transaction_receipt`: the call raised, returned something falsy, or a receipt. */
  datatype Lookup = LookupRaised | NoReceipt | Mined(receipt: Receipt)

  /** One `get_transaction`: the call raised, returned nothing, or a transaction whose
      `blockNumber` is None while it is still in the mempool. */
  datatype TxLookup = TxRaised | NoTx | Known(blockNumber: Option<nat>)

  /** The status strings the wallet reports: "Success", "Failed", "Pending", "Not Found". */
  datatype TxStatus = Success | Failed | Pending | NotFound

  /** `"Success" if receipt.status == 1 else "Failed"`. */
  function ReceiptStatus(r: Receipt): (s: TxStatus)
    ensures s == Success <==> r.status == 1
    ensures s != Pending && s != NotFound
  {
    if r.status == 1 then Success else Failed
  }

  /** The view functions of an ERC-20 contract, each of which may revert. */
  datatype TokenContract = TokenContract(
    name: Reply<string>,
    symbol: Reply<string>,
    decimals: Reply<nat>,
    totalSupply: Reply<nat>,
    balanceOf: string -> Reply<nat>)

  /** The web3 node: address utilities and JSON-RPC reads and writes. */
  datatype Node = Node(
    isAddress: string -> Reply<bool>,
    toChecksum: string -> string,
    getBalance: string -> Reply<nat>,
    getTransactionCount: string -> Reply<nat>,
    gasPrice: Reply<nat>,
    sendRawTransaction: string -> Reply<string>,
    contractAt: string -> TokenContract,
    receipt: string -> Lookup,
    transaction: string -> TxLookup,
    poll: (string, nat) -> Lookup)

  /** The ERC-20 call a token transfer carries as its data; the ABI encoding is the signer's. */
  datatype Payload = NoData | TransferCall(recipient: string, amount: int)

  /** A transaction dictionary as built before signing. */
  datatype UnsignedTx = UnsignedTx(
    nonce: nat,
    to: string,
    value: int,
    gas: nat,
    gasPrice: nat,
    chainId: nat,
    data: Payload)

  /** One level of a BIP-32 derivation path. */
  datatype PathLevel = Hardened(index: nat) | Normal(index: nat)

  /** What eth_account derives from a private key. */
  datatype Account = Account(address: string, publicKey: string)

  /** The key-handling libraries. `generate` takes the entropy it would otherwise draw;
      `seedOf` is the BIP-39 seed generator, which checks the mnemonic again and may raise. */
  datatype Keys = Keys(
    generate: (nat, seq<bv8>) -> Reply<string>,
    check: string -> Reply<bool>,
    seedOf: string -> Reply<seq<bv8>>,
    derive: (seq<bv8>, seq<PathLevel>) -> Reply<seq<bv8>>,
    fromKey: string -> Reply<Account>,
    sign: (UnsignedTx, string) -> Reply<string>)

  datatype TokenField = NameField | SymbolField | DecimalsField | TotalSupplyField

  /** A call the wallet makes into a collaborator, as recorded in an operation's log. */
  datatype Call =
    | GasPriceRead
    | NonceRead(account: string)
    | BalanceRead(account: string)
    | TokenFieldRead(token: string, field: TokenField)
    | TokenBalanceRead(token: string, owner: string)
    | Signing(tx: UnsignedTx)
    | SendRaw(raw: string)
    | ConfirmationWait(txHash: string)
    | SeedDerivation(mnemonic: string)
    | KeyDerivation(path: seq<PathLevel>)

  /** The steps of a transfer that come after its balance gate. */
  predicate IsTransferStep(c: Call) {
    c.GasPriceRead? || c.NonceRead? || c.Signing? || c.SendRaw? || c.ConfirmationWait?
  }

  /** An operation's outcome together with the collaborator calls it made. */
  datatype Traced<+T> = Traced(result: Result<T>, log: seq<Call>)
}

=== FILE: config.dfy ===
/** The network constants of the BSC testnet deployment the wallet talks to. */
module Config {

  const ChainId: nat := 97
  const Explorer: string := "https://testnet.bscscan.com"

  /** The BIP-44 path the configuration advertises: purpose 44', SLIP-44 coin type 60',
      account 0', external chain 0, address index 0. */
  const Bip44Path: string := "m/44'/60'/0'/0/0"

  /** Gas limit of a native transfer (the intrinsic cost of a value transfer). */
  const DefaultGasLimit: nat := 21000
  /** Gas limit of an ERC-20 `transfer` call. */
  const TokenTransferGasLimit: nat := 100000
  /** Fallback gas price, 20 gwei, in wei. */
  const DefaultGasPrice: nat := 20_000_000_000

  /** Decimals of the native coin: 1 BNB is 10^18 wei. */
  const NativeDecimals: nat := 18

  /** The sample BEP-20 tokens, in the dictionary's insertion order: (name, address). */
  const SampleTokens: seq<(string, string)> := [
    ("USDT", "0xA11c8D9DC9b66E209Ef60F0C8D969D3CD988782c"),
    ("BUSD", "0xeD24FC36d5Ee211Ea25A80239Fb8C4Cfd80f12Ee"),
    ("IVP", "0xf3eeCd4b52ef54c15EdF2d5eD525A2d200701041")
  ]

  /** `f"{BSC_TESTNET_EXPLORER}/tx/{tx_hash}"`: the explorer's transaction page, whose last
      path part is the hash itself. */
  function ExplorerTxUrl(txHash: string): (url: string)
    ensures |url| == |Explorer| + 4 + |txHash|
    ensures url[..|Explorer| + 4] == Explorer + "/tx/"
    ensures url[|Explorer| + 4..] == txHash
  {
    Explorer + "/tx/" + txHash
  }

  /** Distinct hashes get distinct explorer links. */
  lemma ExplorerUrlIdentifiesTx(h: string, h': string)
    ensures ExplorerTxUrl(h) == ExplorerTxUrl(h') <==> h == h'
  {
    if ExplorerTxUrl(h) == ExplorerTxUrl(h') {
      assert ExplorerTxUrl(h)[|Explorer| + 4..] == ExplorerTxUrl(h')[|Explorer| + 4..];
    }
  }
}

=== FILE: errors.dfy ===
/** The error taxonomy of the wallet and the `Result` type its operations return. */
module Errors {

  /** Which address argument failed `is_address`; it selects the text of the ValueError. */
  datatype AddressRole = Plain | From | To | TokenContract | Wallet

  /** The classes a failed broadcast of a native transfer is sorted into. */
  datatype BroadcastError =
    | InsufficientFunds
    | NonceTooLow
    | NonceTooHigh
    | GasPriceTooLow
    | IntrinsicGasTooLow
    | NetworkUnavailable
    | BroadcastFailed(original: string)

  /** Everything an operation of the wallet can raise. */
  datatype Failure =
    | InvalidAddress(role: AddressRole)
    | InvalidMnemonic
      /** The native balance gate; `faucetGuidance` stands for the faucet text appended to the message. */
    | InsufficientBalance(available: real, required: real, faucetGuidance: bool)
      /** The token balance gate: the available amount and the token symbol, no guidance. */
    | InsufficientTokenBalance(available: real, symbol: string)
    | Broadcast(reason: BroadcastError)
    | ConfirmationTimeout(timeout: int)
      /** An exception of a collaborator passed through unchanged. */
    | Propagated(message: string)
      /** web3 refuses the requested amount: `to_wei` when its exact value in wei lies outside
          `0 .. 2^256 - 1`, the `uint256` argument check of `transfer` when its truncated
          raw amount does. */
    | AmountOutOfRange(amount: real)

  /** The Python exception class a failure surfaces as. */
  datatype ExceptionClass = ValueError | ConnectionError | TimeoutError | CollaboratorError

  function ClassOf(f: Failure): (c: ExceptionClass)
    ensures c == ConnectionError <==> f == Broadcast(NetworkUnavailable)
    ensures c == TimeoutError <==> f.ConfirmationTimeout?
    ensures c == CollaboratorError <==> f.Propagated? || f.AmountOutOfRange?
  {
    match f
    case Broadcast(NetworkUnavailable) => ConnectionError
    case ConfirmationTimeout(_) => TimeoutError
    case Propagated(_) => CollaboratorError
    case AmountOutOfRange(_) => CollaboratorError
    case _ => ValueError
  }

  datatype Result<+T> = Ok(value: T) | Err(error: Failure)
}

=== FILE: text.dfy ===
/** String helpers the wallet relies on: ASCII lower-casing, Python's `in` on strings,
    decimal rendering of a non-negative integer, lower-case hex of bytes and the `0x` strip. */
module Text {

  /** Lower-cases one character; only the ASCII capitals A-Z change. */
  function LowerChar(c: char): char {
    if 'A' <= c <= 'Z' then (c as int + 32) as char else c
  }

  /** `str.lower()` restricted to ASCII letters. */
  function Lower(s: string): (r: string)
    ensures |r| == |s|
    ensures forall i :: 0 <= i < |s| ==> r[i] == LowerChar(s[i])
  {
    seq(|s|, i requires 0 <= i < |s| => LowerChar(s[i]))
  }

  predicate StartsWith(s: string, p: string) {
    |p| <= |s| && s[..|p|] == p
  }

  /** The declarative meaning of `p in s`: `p` occurs at some offset of `s`. */
  ghost predicate Occurs(s: string, p: string) {
    exists i :: 0 <= i <= |s| - |p| && StartsWith(s[i..], p)
  }

  /** Python's `p in s`, as a left-to-right scan. */
  function Contains(s: string, p: string): (found: bool)
    ensures found <==> Occurs(s, p)
    decreases |s|
  {
    if StartsWith(s, p) then
      assert StartsWith(s[0..], p);
      true
    else if |s| == 0 then
      false
    else
      var rest := Contains(s[1..], p);
      if rest then
        var i :| 0 <= i <= |s[1..]| - |p| && StartsWith(s[1..][i..], p);
        assert s[1..][i..] == s[i + 1..];
        true
      else
        assert forall i :: 1 <= i <= |s| - |p| ==> s[i..] == s[1..][i - 1..];
        false
  }

  /** Occurrence survives lower-casing of both sides. */
  lemma OccursLower(s: string, p: string)
    requires Occurs(s, p)
    ensures Occurs(Lower(s), Lower(p))
  {
    var i :| 0 <= i <= |s| - |p| && StartsWith(s[i..], p);
    assert Lower(s)[i..][..|p|] == Lower(p);
    assert StartsWith(Lower(s)[i..], Lower(p));
  }

  lemma LowerIdempotent(s: string)
    ensures Lower(Lower(s)) == Lower(s)
  {
  }

  function DigitChar(d: nat): (c: char)
    requires d < 10
    ensures '0' <= c <= '9'
  {
    ('0' as int + d) as char
  }

  /** Python's `f"{n}"` for a non-negative integer: decimal digits only, no leading zero
      but for zero itself, one digit exactly below ten. */
  function NatToString(n: nat): (r: string)
    ensures |r| >= 1
    ensures |r| == 1 <==> n < 10
    ensures forall i :: 0 <= i < |r| ==> '0' <= r[i] <= '9'
    decreases n
  {
    if n < 10 then [DigitChar(n)] else NatToString(n / 10) + [DigitChar(n % 10)]
  }

  /** Python's `int(s)` on a string of decimal digits, read left to right. */
  function DecimalValue(s: string): nat
    decreases |s|
  {
    if s == [] then 0
    else
      var last := s[|s| - 1] as int - '0' as int;
      DecimalValue(s[..|s| - 1]) * 10 + (if 0 <= last then last else 0)
  }

  /** Reading the rendering back gives the number: `int(f"{n}") == n`. */
  lemma {:induction false} NatToStringRoundTrip(n: nat)
    ensures DecimalValue(NatToString(n)) == n
    decreases n
  {
    var s := NatToString(n);
    if n >= 10 {
      NatToStringRoundTrip(n / 10);
      assert s[..|s| - 1] == NatToString(n / 10);
    }
  }

  /** Distinct numbers render differently. */
  lemma NatToStringInjective(m: nat, n: nat)
    ensures NatToString(m) == NatToString(n) <==> m == n
  {
    NatToStringRoundTrip(m);
    NatToStringRoundTrip(n);
  }

  /** The rendering of a positive number never starts with the digit zero. */
  lemma {:induction false} NatToStringLeadingDigit(n: nat)
    ensures NatToString(n)[0] == '0' <==> n == 0
    decreases n
  {
    if n >= 10 {
      NatToStringLeadingDigit(n / 10);
    }
  }

  /** "0" is the rendering of zero and of nothing else. */
  lemma NatToStringZero(n: nat)
    ensures NatToString(n) == "0" <==> n == 0
  {
    NatToStringLeadingDigit(n);
    if NatToString(n) == "0" {
      assert NatToString(n)[0] == '0';
    }
  }

  function HexDigit(d: bv8): char
    requires d < 16
  {
    "0123456789abcdef"[d as int]
  }

  /** Python's `bytes.hex()`: two lower-case hex digits per byte, no prefix. */
  function Hex(bytes: seq<bv8>): (r: string)
    ensures |r| == 2 * |bytes|
    ensures forall i :: 0 <= i < |bytes| ==>
              r[2 * i] == HexDigit(bytes[i] / 16) && r[2 * i + 1] == HexDigit(bytes[i] % 16)
  {
    if |bytes| == 0 then "" else
    var rest := Hex(bytes[1..]);
    var r := [HexDigit(bytes[0] / 16), HexDigit(bytes[0] % 16)] + rest;
    assert forall i :: 1 <= i < |bytes| ==> r[2 * i] == rest[2 * (i - 1)] && bytes[i] == bytes[1..][i - 1];
    r
  }

  /** `bytes.hex()` never starts with "0x": its second character is a hex digit, never 'x'. */
  lemma HexHasNoPrefix(bytes: seq<bv8>)
    ensures !StartsWith(Hex(bytes), "0x")
  {
    if |bytes| > 0 {
      var d := bytes[0] % 16;
      assert Hex(bytes)[1] == HexDigit(d);
      assert forall k :: 0 <= k < 16 ==> "0123456789abcdef"[k] != 'x';
    }
  }

  /** `if k.startswith('0x'): k = k[2:]`: exactly one lower-case `0x` is removed. */
  function StripHexPrefix(k: string): (r: string)
    ensures StartsWith(k, "0x") ==> "0x" + r == k
    ensures !StartsWith(k, "0x") ==> r == k
  {
    if StartsWith(k, "0x") then k[2..] else k
  }

  /** Stripping undoes prepending "0x", whatever follows; a second prefix stays. */
  lemma StripHexPrefixInverse(k: string)
    ensures StripHexPrefix("0x" + k) == k
  {
    assert ("0x" + k)[..2] == "0x";
    assert ("0x" + k)[2..] == k;
  }

  /** An upper-case `0X` is not a prefix the source recognises. */
  lemma StripHexPrefixCaseSensitive(k: string)
    ensures StripHexPrefix("0X" + k) == "0X" + k
  {
    assert ("0X" + k)[1] == 'X';
  }
}

=== FILE: token_transfer.dfy ===
/** BEP-20 (ERC-20) token transfers: contract lookup, metadata with per-field defaults,
    balances, the `transfer` call, a broadcast that passes errors through, and the
    `send_token` pipeline with its balance gate. */
module TokenTransfer {
  import opened Base
  import opened Errors
  import opened Config
  import opened Units
  import opened Collaborators
  import opened Transfers
  import opened Watcher

  /** `get_token_contract`: the token address is checked before any contract object exists;
      the contract is identified by its checksum address. */
  function GetTokenContract(node: Node, token: string): (r: Result<string>)
    ensures node.isAddress(token) == Value(false) ==> r == Err(InvalidAddress(AddressRole.TokenContract))
    ensures r.Ok? <==> node.isAddress(token) == Value(true)
    ensures r.Ok? ==> r.value == node.toChecksum(token)
  {
    CheckAddress(node, token, AddressRole.TokenContract)
  }

  /** The dictionary `get_token_info` returns. */
  datatype TokenInfo = TokenInfo(address: string, name: string, symbol: string, decimals: nat, totalSupply: nat)

  /** A view call whose failure is replaced by a default. */
  function Or<T>(reply: Reply<T>, default: T): T {
    match reply
    case Value(v) => v
    case Raised(_) => default
  }

  /** The decimals the wallet uses for a token: the contract's answer, or 18. */
  function TokenDecimals(node: Node, token: string): nat {
    Or(node.contractAt(node.toChecksum(token)).decimals, 18)
  }

  /** The four metadata reads of `get_token_info`, in order. */
  function InfoReads(contract: string): seq<Call> {
    [TokenFieldRead(contract, NameField), TokenFieldRead(contract, SymbolField),
     TokenFieldRead(contract, DecimalsField), TokenFieldRead(contract, TotalSupplyField)]
  }

  /** `get_token_info`: each of the four fields falls back to its own default when its own
      call fails, independently of the other three. */
  function GetTokenInfo(node: Node, token: string): (r: Traced<TokenInfo>)
    ensures r.result.Ok? <==> node.isAddress(token) == Value(true)
    ensures r.result.Err? ==> r.log == []
    ensures r.result.Ok? ==>
              var c := node.contractAt(node.toChecksum(token));
              var info := r.result.value;
              && info.address == node.toChecksum(token)
              && (c.name.Raised? ==> info.name == "Unknown")
              && (c.name.Value? ==> info.name == c.name.value)
              && (c.symbol.Raised? ==> info.symbol == "UNK")
              && (c.symbol.Value? ==> info.symbol == c.symbol.value)
              && (c.decimals.Raised? ==> info.decimals == 18)
              && (c.decimals.Value? ==> info.decimals == c.decimals.value)
              && (c.totalSupply.Raised? ==> info.totalSupply == 0)
              && (c.totalSupply.Value? ==> info.totalSupply == c.totalSupply.value)
              && r.log == InfoReads(info.address)
  {
    match GetTokenContract(node, token)
    case Err(e) => Traced(Err(e), [])
    case Ok(address) =>
      var c := node.contractAt(address);
      var info := TokenInfo(address, Or(c.name, "Unknown"), Or(c.symbol, "UNK"), Or(c.decimals, 18),
                            Or(c.totalSupply, 0));
      Traced(Ok(info), InfoReads(address))
  }

  /** Each field falls back on its own: two nodes that agree on the token's validity and
      checksum form and give the same reply for one view call yield the same value for that
      field, whatever the other three calls answer or raise. */
  lemma InfoFieldsIndependent(node: Node, other: Node, token: string)
    requires node.isAddress(token) == Value(true) && other.isAddress(token) == Value(true)
    requires node.toChecksum(token) == other.toChecksum(token)
    ensures var c, d := node.contractAt(node.toChecksum(token)), other.contractAt(other.toChecksum(token));
            var i, j := GetTokenInfo(node, token).result.value, GetTokenInfo(other, token).result.value;
            && (c.name == d.name ==> i.name == j.name)
            && (c.symbol == d.symbol ==> i.symbol == j.symbol)
            && (c.decimals == d.decimals ==> i.decimals == j.decimals)
            && (c.totalSupply == d.totalSupply ==> i.totalSupply == j.totalSupply)
  {
  }

  /** The dictionary `get_token_balance` returns. */
  datatype TokenBalance = TokenBalance(
    walletAddress: string,
    tokenAddress: string,
    tokenName: string,
    tokenSymbol: string,
    balanceRaw: nat,
    balanceFormatted: real,
    decimals: nat)

  /** `get_token_balance`: the token is checked, its metadata read, then the wallet address
      is checked before `balanceOf` is called. */
  function GetTokenBalance(node: Node, token: string, wallet: string): (r: Traced<TokenBalance>)
    ensures node.isAddress(token) != Value(true) ==> r.result.Err? && r.log == []
    ensures node.isAddress(token) == Value(false) ==> r.result == Err(InvalidAddress(AddressRole.TokenContract))
    ensures (node.isAddress(token) == Value(true) && node.isAddress(wallet) == Value(false))
              ==> r.result == Err(InvalidAddress(Wallet))
    ensures node.isAddress(wallet) != Value(true) ==> forall c :: c in r.log ==> !c.TokenBalanceRead?
    ensures r.result.Ok? <==>
              && node.isAddress(token) == Value(true)
              && node.isAddress(wallet) == Value(true)
              && node.contractAt(node.toChecksum(token)).balanceOf(node.toChecksum(wallet)).Value?
    ensures node.isAddress(token).Raised? ==> r.result == Err(Propagated(node.isAddress(token).message))
    ensures (node.isAddress(token) == Value(true) && node.isAddress(wallet).Raised?)
              ==> r.result == Err(Propagated(node.isAddress(wallet).message))
    ensures (node.isAddress(token) == Value(true) && node.isAddress(wallet) == Value(true)
             && node.contractAt(node.toChecksum(token)).balanceOf(node.toChecksum(wallet)).Raised?)
              ==> r.result == Err(Propagated(node.contractAt(node.toChecksum(token)).balanceOf(node.toChecksum(wallet)).message))
    ensures r.result.Ok? ==>
              var b := r.result.value;
              && b.walletAddress == node.toChecksum(wallet)
              && b.tokenAddress == node.toChecksum(token)
              && b.decimals == TokenDecimals(node, token)
              && GetTokenInfo(node, token).result.Ok?
              && b.tokenName == GetTokenInfo(node, token).result.value.name
              && b.tokenSymbol == GetTokenInfo(node, token).result.value.symbol
              && b.decimals == GetTokenInfo(node, token).result.value.decimals
              && node.contractAt(b.tokenAddress).balanceOf(b.walletAddress) == Value(b.balanceRaw)
              && b.balanceFormatted == FromBaseUnits(b.balanceRaw, b.decimals)
              && r.log == GetTokenInfo(node, token).log + [TokenBalanceRead(b.tokenAddress, b.walletAddress)]
  {
    match GetTokenContract(node, token)
    case Err(e) => Traced(Err(e), [])
    case Ok(address) =>
      var info := GetTokenInfo(node, token);
      var i := info.result.value;
      match CheckAddress(node, wallet, Wallet)
      case Err(e) => Traced(Err(e), info.log)
      case Ok(owner) =>
        var calls := info.log + [TokenBalanceRead(address, owner)];
        match node.contractAt(address).balanceOf(owner)
        case Raised(m) => Traced(Err(Propagated(m)), calls)
        case Value(raw) =>
          Traced(Ok(TokenBalance(owner, i.address, i.name, i.symbol, raw, FromBaseUnits(raw, i.decimals), i.decimals)),
                 calls)
  }

  /** `create_token_transfer_transaction`: token, sender and recipient are checked before
      the gas price or the nonce is read; the raw amount uses the token's reported decimals,
      and the `uint256` argument of `transfer` refuses one outside its range only when the
      call is built, after the nonce read. */
  function CreateTokenTransferTransaction(node: Node, token: string, from: string, to: string, amount: real,
                                          gasPrice: Option<nat>)
    : (r: Traced<UnsignedTx>)
    ensures (node.isAddress(token) != Value(true) || node.isAddress(from) != Value(true)
             || node.isAddress(to) != Value(true))
              ==> r.result.Err? && forall c :: c in r.log ==> !c.GasPriceRead? && !c.NonceRead?
    ensures (node.isAddress(token) == Value(true) && node.isAddress(from) == Value(false))
              ==> r.result == Err(InvalidAddress(From))
    ensures (node.isAddress(token) == Value(true) && node.isAddress(from) == Value(true)
             && node.isAddress(to) == Value(false))
              ==> r.result == Err(InvalidAddress(To))
    ensures (node.isAddress(token) == Value(true) && node.isAddress(from) == Value(true)
             && node.isAddress(to) == Value(true) && node.getTransactionCount(node.toChecksum(from)).Value?
             && !InUint256(ToBaseUnits(amount, TokenDecimals(node, token))))
              ==> r.result == Err(AmountOutOfRange(amount))
                  && NonceRead(node.toChecksum(from)) in r.log
    ensures node.isAddress(token).Raised? ==> r.result == Err(Propagated(node.isAddress(token).message))
    ensures (node.isAddress(token) == Value(true) && node.isAddress(from).Raised?)
              ==> r.result == Err(Propagated(node.isAddress(from).message))
    ensures (node.isAddress(token) == Value(true) && node.isAddress(from) == Value(true)
             && node.isAddress(to).Raised?)
              ==> r.result == Err(Propagated(node.isAddress(to).message))
    ensures (node.isAddress(token) == Value(true) && node.isAddress(from) == Value(true)
             && node.isAddress(to) == Value(true) && node.getTransactionCount(node.toChecksum(from)).Raised?)
              ==> r.result == Err(Propagated(node.getTransactionCount(node.toChecksum(from)).message))
                  && NonceRead(node.toChecksum(from)) in r.log
    ensures r.result.Ok? <==>
              && node.isAddress(token) == Value(true)
              && node.isAddress(from) == Value(true)
              && node.isAddress(to) == Value(true)
              && node.getTransactionCount(node.toChecksum(from)).Value?
              && InUint256(ToBaseUnits(amount, TokenDecimals(node, token)))
    ensures forall c :: c in r.log ==> !c.Signing? && !c.SendRaw?
    ensures r.result.Ok? ==>
              var tx := r.result.value;
              && tx.data.TransferCall? && InUint256(tx.data.amount)
              && tx.to == node.toChecksum(token)
              && tx.value == 0
              && tx.gas == 100000
              && tx.chainId == 97
              && tx.data == TransferCall(node.toChecksum(to), ToBaseUnits(amount, TokenDecimals(node, token)))
              && node.getTransactionCount(node.toChecksum(from)) == Value(tx.nonce)
              && tx.gasPrice == ResolveGasPrice(node, gasPrice)
              && NonceRead(node.toChecksum(from)) in r.log
  {
    match GetTokenContract(node, token)
    case Err(e) => Traced(Err(e), [])
    case Ok(contract) =>
      var info := GetTokenInfo(node, token);
      var i := info.result.value;
      match CheckAddress(node, from, From)
      case Err(e) => Traced(Err(e), info.log)
      case Ok(fromChecksum) =>
        match CheckAddress(node, to, To)
        case Err(e) => Traced(Err(e), info.log)
        case Ok(toChecksum) =>
          var amountRaw := ToBaseUnits(amount, i.decimals);
          var price := ResolveGasPrice(node, gasPrice);
          var calls := info.log + GasPriceReads(gasPrice) + [NonceRead(fromChecksum)];
          match node.getTransactionCount(fromChecksum)
          case Raised(m) => Traced(Err(Propagated(m)), calls)
          case Value(nonce) =>
            if !InUint256(amountRaw) then Traced(Err(AmountOutOfRange(amount)), calls)
            else Traced(Ok(UnsignedTx(nonce, contract, 0, TokenTransferGasLimit, price, ChainId,
                                      TransferCall(toChecksum, amountRaw))), calls)
  }

  /** The transaction depends on the three addresses only through the answer of
      `is_address` and their checksum form: the same addresses written differently build
      the same transaction, or fail the same way. */
  lemma TokenTransactionUsesChecksum(node: Node, token: string, token': string, from: string, from': string,
                                     to: string, to': string, amount: real, gasPrice: Option<nat>)
    requires node.isAddress(token) == node.isAddress(token') && node.toChecksum(token) == node.toChecksum(token')
    requires node.isAddress(from) == node.isAddress(from') && node.toChecksum(from) == node.toChecksum(from')
    requires node.isAddress(to) == node.isAddress(to') && node.toChecksum(to) == node.toChecksum(to')
    ensures CreateTokenTransferTransaction(node, token, from, to, amount, gasPrice)
              == CreateTokenTransferTransaction(node, token', from', to', amount, gasPrice)
  {
  }

  /** `broadcast_transaction` of the token module: the error is re-raised as it came. */
  function BroadcastTransaction(node: Node, raw: string): (r: Traced<string>)
    ensures r.log == [SendRaw(raw)]
    ensures r.result.Ok? <==> node.sendRawTransaction(raw).Value?
    ensures r.result.Ok? ==> r.result.value == node.sendRawTransaction(raw).value
    ensures r.result.Err? ==> r.result.error == Propagated(node.sendRawTransaction(raw).message)
  {
    match node.sendRawTransaction(raw)
    case Value(txHash) => Traced(Ok(txHash), [SendRaw(raw)])
    case Raised(m) => Traced(Err(Propagated(m)), [SendRaw(raw)])
  }

  /** The dictionary `send_token` returns. */
  datatype TokenSent = TokenSent(
    txHash: string,
    fromAddress: string,
    toAddress: string,
    tokenAddress: string,
    tokenName: string,
    tokenSymbol: string,
    amount: real,
    explorerUrl: string,
    confirmation: Option<Confirmation>)

  /** The token balance the gate of `send_token` sees, when the key, the token and the
      balance read succeed. */
  function SenderTokenBalance(node: Node, keys: Keys, privateKey: string, token: string): Option<TokenBalance> {
    match keys.fromKey(privateKey)
    case Raised(_) => None
    case Value(account) =>
      var balance := GetTokenBalance(node, token, account.address);
      if balance.result.Ok? then Some(balance.result.value) else None
  }

  /** How `send_token` reports an exception of the send: unchanged, since the token
      module's `broadcast_transaction` does not classify it. */
  function SendFailure(message: string): (f: Failure)
    ensures f == Propagated(message)
  {
    Propagated(message)
  }

  /** The hash the node gave a sent transfer, with the receipt data when it was awaited. */
  datatype Dispatched = Dispatched(txHash: string, confirmation: Option<Confirmation>)

  /** Sign a built transfer, broadcast it and, when asked, wait for its receipt with the
      default timeout: the signer's and the send's exceptions are re-raised as they came. */
  method Dispatch(node: Node, keys: Keys, clock: Clock, privateKey: string, tx: UnsignedTx, wait: bool)
    returns (r: Traced<Dispatched>)
    requires Ticks(clock)
    ensures Settles(node, keys, clock, privateKey, Ok(tx), SendFailure, wait, r.result)
    ensures forall t :: Signing(t) in r.log ==> t == tx
    ensures r.result.Ok? ==>
              var d := r.result.value;
              && SignedAndSent(node, keys, privateKey, tx, d.txHash, r.log)
              && (d.confirmation.Some? <==> wait)
              && (wait ==> Outcome(d.txHash, DefaultTimeout, node.poll, clock, 0).result == Ok(d.confirmation.value))
    ensures r.result.Err? ==> !r.result.error.Broadcast? && !r.result.error.InsufficientBalance?
                              && !r.result.error.InsufficientTokenBalance?
    ensures r.result.Err? && r.result.error.ConfirmationTimeout? ==> wait && r.result.error.timeout == 300
  {
    var signed := SignTransaction(keys, tx, privateKey);
    var log := signed.log;
    if signed.result.Err? {
      return Traced(Err(signed.result.error), log);
    }

    var sent := BroadcastTransaction(node, signed.result.value);
    log := log + sent.log;
    if sent.result.Err? {
      return Traced(Err(sent.result.error), log);
    }
    var txHash := sent.result.value;
    if !wait {
      return Traced(Ok(Dispatched(txHash, None)), log);
    }
    log := log + [ConfirmationWait(txHash)];
    var confirmation, _ := Watch(txHash, DefaultTimeout, node.poll, clock);
    if confirmation.Err? {
      return Traced(Err(confirmation.error), log);
    }
    return Traced(Ok(Dispatched(txHash, Some(confirmation.value))), log);
  }

  /** The part of `send_token` after the gate: build, sign, broadcast and optionally wait,
      for a token whose `get_token_info` answered `info`. Whatever it signs is a `transfer` of the requested amount in the token's base units. */
  method Submit(node: Node, keys: Keys, clock: Clock, privateKey: string, token: string, from: string, to: string,
                amount: real, wait: bool, info: TokenInfo)
    returns (r: Traced<TokenSent>)
    requires Ticks(clock)
    requires GetTokenInfo(node, token).result == Ok(info)
    ensures forall tx :: Signing(tx) in r.log ==>
              CreateTokenTransferTransaction(node, token, from, to, amount, None).result == Ok(tx)
    ensures Settles(node, keys, clock, privateKey, CreateTokenTransferTransaction(node, token, from, to, amount, None).result,
                    SendFailure, wait, r.result)
    ensures forall tx :: Signing(tx) in r.log ==>
              tx.data == TransferCall(node.toChecksum(to), ToBaseUnits(amount, TokenDecimals(node, token)))
    ensures r.result.Ok? ==>
              var created := CreateTokenTransferTransaction(node, token, from, to, amount, None);
              var sent := r.result.value;
              && created.result.Ok?
              && SignedAndSent(node, keys, privateKey, created.result.value, sent.txHash, r.log)
              && sent.fromAddress == from
              && sent.toAddress == to
              && sent.tokenAddress == info.address
              && sent.tokenName == info.name
              && sent.tokenSymbol == info.symbol
              && sent.amount == amount
              && sent.explorerUrl == ExplorerTxUrl(sent.txHash)
              && (sent.confirmation.Some? <==> wait)
              && (wait ==> Outcome(sent.txHash, DefaultTimeout, node.poll, clock, 0).result == Ok(sent.confirmation.value))
    ensures r.result.Err? ==> !r.result.error.Broadcast? && !r.result.error.InsufficientBalance?
                              && !r.result.error.InsufficientTokenBalance?
    ensures r.result.Err? && r.result.error.ConfirmationTimeout? ==> wait && r.result.error.timeout == 300
  {
    var created := CreateTokenTransferTransaction(node, token, from, to, amount, None);
    if created.result.Err? {
      return Traced(Err(created.result.error), created.log);
    }
    var dispatched := Dispatch(node, keys, clock, privateKey, created.result.value, wait);
    var log := created.log + dispatched.log;
    if dispatched.result.Err? {
      return Traced(Err(dispatched.result.error), log);
    }
    var d := dispatched.result.value;
    var sent := TokenSent(d.txHash, from, to, info.address, info.name, info.symbol, amount, ExplorerTxUrl(d.txHash),
                          d.confirmation);
    return Traced(Ok(sent), log);
  }


  /** The gate of `send_token` for the sender `from`: the token is read, then the sender's
      balance, and an amount above the balance is refused; no transfer step runs before it
      passes, and a passed gate ends with the balance read. */
  function TokenGate(node: Node, token: string, from: string, amount: real): (r: Traced<TokenBalance>)
    ensures NoTransferSteps(r.log)
    ensures GetTokenInfo(node, token).result.Err? ==> r.result == Err(GetTokenInfo(node, token).result.error)
    ensures (GetTokenInfo(node, token).result.Ok? && GetTokenBalance(node, token, from).result.Err?)
              ==> r.result == Err(GetTokenBalance(node, token, from).result.error)
    ensures GetTokenBalance(node, token, from).result.Ok? ==>
              var b := GetTokenBalance(node, token, from).result.value;
              if Below(b.balanceRaw, b.decimals, amount)
              then r.result == Err(InsufficientTokenBalance(b.balanceFormatted, b.tokenSymbol))
              else r.result == Ok(b)
    ensures r.result.Ok? ==> |r.log| > 0 && IsBalanceRead(r.log[|r.log| - 1])
  {
    var info := GetTokenInfo(node, token);
    if info.result.Err? then Traced(Err(info.result.error), info.log) else
    var balance := GetTokenBalance(node, token, from);
    var log := info.log + balance.log;
    if balance.result.Err? then Traced(Err(balance.result.error), log) else
    var b := balance.result.value;
    if Below(b.balanceRaw, b.decimals, amount)
    then Traced(Err(InsufficientTokenBalance(b.balanceFormatted, info.result.value.symbol)), log)
    else Traced(Ok(b), log)
  }

  /** `send_token`: derive the sender, read the token, gate on the sender's token balance,
      then submit the transfer, waiting with the default timeout when asked. */
  method SendToken(node: Node, keys: Keys, clock: Clock, privateKey: string, token: string, to: string,
                   amount: real, wait: bool)
    returns (r: Traced<TokenSent>)
    requires Ticks(clock)
    ensures (SenderTokenBalance(node, keys, privateKey, token).Some?
             && var b := SenderTokenBalance(node, keys, privateKey, token).value;
                Below(b.balanceRaw, b.decimals, amount))
              ==> var b := SenderTokenBalance(node, keys, privateKey, token).value;
                  && r.result == Err(InsufficientTokenBalance(b.balanceFormatted, b.tokenSymbol))
                  && NoTransferSteps(r.log)
    ensures r.result.Ok? ==> SenderTokenBalance(node, keys, privateKey, token).Some?
                             && var b := SenderTokenBalance(node, keys, privateKey, token).value;
                                !Below(b.balanceRaw, b.decimals, amount)
    ensures keys.fromKey(privateKey).Raised? ==> r.result == Err(Propagated(keys.fromKey(privateKey).message)) && r.log == []
    ensures (keys.fromKey(privateKey).Value? && GetTokenInfo(node, token).result.Err?)
              ==> r.result == Err(GetTokenInfo(node, token).result.error)
    ensures (keys.fromKey(privateKey).Value? && GetTokenInfo(node, token).result.Ok?
             && SenderTokenBalance(node, keys, privateKey, token).None?)
              ==> r.result == Err(GetTokenBalance(node, token, keys.fromKey(privateKey).value.address).result.error)
    ensures (SenderTokenBalance(node, keys, privateKey, token).Some?
             && var b := SenderTokenBalance(node, keys, privateKey, token).value;
                !Below(b.balanceRaw, b.decimals, amount))
              ==> Settles(node, keys, clock, privateKey,
                          CreateTokenTransferTransaction(node, token, keys.fromKey(privateKey).value.address, to, amount, None).result,
                          SendFailure, wait, r.result)
    ensures GatedLog(r.log)
    ensures forall tx :: Signing(tx) in r.log ==>
              && SenderTokenBalance(node, keys, privateKey, token).Some?
              && tx.data.TransferCall?
              && tx.data.amount <= SenderTokenBalance(node, keys, privateKey, token).value.balanceRaw
    ensures r.result.Ok? ==>
              && keys.fromKey(privateKey).Value?
              && GetTokenInfo(node, token).result.Ok?
              && var from := keys.fromKey(privateKey).value.address;
                 var created := CreateTokenTransferTransaction(node, token, from, to, amount, None);
                 var info := GetTokenInfo(node, token).result.value;
                 var sent := r.result.value;
                 && created.result.Ok?
                 && SignedAndSent(node, keys, privateKey, created.result.value, sent.txHash, r.log)
                 && (forall tx :: Signing(tx) in r.log ==> tx == created.result.value)
                 && sent.fromAddress == from
                 && sent.tokenName == info.name
                 && sent.tokenSymbol == info.symbol
    ensures r.result.Ok? ==>
              var sent := r.result.value;
              && sent.tokenAddress == node.toChecksum(token)
              && sent.toAddress == to
              && sent.amount == amount
              && sent.explorerUrl == ExplorerTxUrl(sent.txHash)
              && (sent.confirmation.Some? <==> wait)
              && (wait ==> Outcome(sent.txHash, DefaultTimeout, node.poll, clock, 0).result == Ok(sent.confirmation.value))
    ensures r.result.Err? ==> !r.result.error.Broadcast? && !r.result.error.InsufficientBalance?
    ensures r.result.Err? && r.result.error.ConfirmationTimeout? ==> wait && r.result.error.timeout == 300
  {
    var account;
    match keys.fromKey(privateKey) {
      case Raised(m) =>
        return Traced(Err(Propagated(m)), []);
      case Value(a) =>
        account := a;
    }
    var from := account.address;
    assert keys.fromKey(privateKey).value.address == from;

    var gate := TokenGate(node, token, from, amount);
    if gate.result.Err? {
      return Traced(Err(gate.result.error), gate.log);
    }
    var b := gate.result.value;
    var tokenInfo := GetTokenInfo(node, token).result.value;
    assert SenderTokenBalance(node, keys, privateKey, token) == Some(b);
    GatePassedCoversTransfer(b.balanceRaw, b.decimals, amount);

    var submitted := Submit(node, keys, clock, privateKey, token, from, to, amount, wait, tokenInfo);
    GatedAfterRead(gate.log, submitted.log, |gate.log| - 1);
    if submitted.result.Ok? {
      var created := CreateTokenTransferTransaction(node, token, from, to, amount, None);
      SentAfterGate(node, keys, privateKey, created.result.value, submitted.result.value.txHash, gate.log, submitted.log);
    }
    return Traced(submitted.result, gate.log + submitted.log);
  }
}

=== FILE: transfers.dfy ===
/** The steps both transfer kinds share: address checking, the gas-price rule, signing,
    and the shape of a transfer's call log. The token module repeats these steps
    word for word in the source; they are modelled once here. */
module Transfers {
  import opened Base
  import opened Errors
  import opened Text
  import opened Config
  import opened Collaborators
  import opened Watcher

  /** `if not web3.is_address(a): raise ValueError(...)`, then `to_checksum_address(a)`.
      An exception of `is_address` itself propagates. */
  function CheckAddress(node: Node, a: string, role: AddressRole): (r: Result<string>)
    ensures r.Ok? <==> node.isAddress(a) == Value(true)
    ensures r.Ok? ==> r.value == node.toChecksum(a)
    ensures node.isAddress(a) == Value(false) ==> r == Err(InvalidAddress(role))
  {
    match node.isAddress(a)
    case Value(true) => Ok(node.toChecksum(a))
    case Value(false) => Err(InvalidAddress(role))
    case Raised(m) => Err(Propagated(m))
  }

  /** `estimate_gas_price`: the network's price, or the default when the read raises. */
  function EstimateGasPrice(node: Node): (price: nat)
    ensures node.gasPrice.Value? ==> price == node.gasPrice.value
    ensures node.gasPrice.Raised? ==> price == DefaultGasPrice
  {
    match node.gasPrice
    case Value(p) => p
    case Raised(_) => DefaultGasPrice
  }

  /** `if gas_price is None: gas_price = self.estimate_gas_price()`. */
  function ResolveGasPrice(node: Node, explicit: Option<nat>): (price: nat)
    ensures explicit.Some? ==> price == explicit.value
    ensures explicit.None? ==> price == EstimateGasPrice(node)
  {
    match explicit
    case Some(p) => p
    case None => EstimateGasPrice(node)
  }

  /** The node is asked for its gas price only when no price was given. */
  function GasPriceReads(explicit: Option<nat>): seq<Call> {
    if explicit.None? then [GasPriceRead] else []
  }

  /** The price used is always the explicit one, the network's, or the 20 gwei default, in
      that order of preference; an explicit price makes the node irrelevant. */
  lemma GasPriceSources(node: Node, other: Node, explicit: Option<nat>)
    ensures var price := ResolveGasPrice(node, explicit);
            price == (if explicit.Some? then explicit.value
                      else if node.gasPrice.Value? then node.gasPrice.value
                      else DefaultGasPrice)
    ensures explicit.Some? ==> ResolveGasPrice(node, explicit) == ResolveGasPrice(other, explicit)
    ensures explicit.None? && node.gasPrice.Raised? ==> ResolveGasPrice(node, explicit) == 20_000_000_000
  {
  }

  /** `sign_transaction`: the key loses one leading `0x` before it reaches the signer. */
  function SignTransaction(keys: Keys, tx: UnsignedTx, privateKey: string): (r: Traced<string>)
    ensures r.log == [Signing(tx)]
    ensures r.result.Ok? <==> keys.sign(tx, StripHexPrefix(privateKey)).Value?
    ensures r.result.Ok? ==> r.result.value == keys.sign(tx, StripHexPrefix(privateKey)).value
  {
    match keys.sign(tx, StripHexPrefix(privateKey))
    case Value(raw) => Traced(Ok(raw), [Signing(tx)])
    case Raised(m) => Traced(Err(Propagated(m)), [Signing(tx)])
  }

  /** The signer signed `tx` with the key stripped of one `0x`, the node accepted the signed
      bytes under `txHash`, and both calls are in `log`. */
  predicate SignedAndSent(node: Node, keys: Keys, privateKey: string, tx: UnsignedTx, txHash: string,
                          log: seq<Call>)
  {
    var signed := keys.sign(tx, StripHexPrefix(privateKey));
    && signed.Value?
    && Signing(tx) in log
    && SendRaw(signed.value) in log
    && node.sendRawTransaction(signed.value) == Value(txHash)
  }

  /** How the steps after a passed balance gate settle a transfer. The transaction built
      as `created`, the signer, the node's send and, when the caller waits, the receipt
      watch with the default timeout are tried in this order: the first that fails decides
      the error the caller sees, and when every one answers the transfer succeeds.
      `sendFailure` is how the pipeline reports an exception of the send. */
  ghost predicate Settles<T>(node: Node, keys: Keys, clock: Clock, privateKey: string, created: Result<UnsignedTx>,
                             sendFailure: string -> Failure, wait: bool, result: Result<T>)
    requires Ticks(clock)
  {
    match created
    case Err(e) => result == Err(e)
    case Ok(tx) =>
      match keys.sign(tx, StripHexPrefix(privateKey))
      case Raised(m) => result == Err(Propagated(m))
      case Value(raw) =>
        match node.sendRawTransaction(raw)
        case Raised(m) => result == Err(sendFailure(m))
        case Value(txHash) =>
          var watched := Outcome(txHash, DefaultTimeout, node.poll, clock, 0).result;
          if wait && watched.Err? then result == Err(watched.error) else result.Ok?
  }

  /** Gate steps in front of a log keep what the log says about signing and sending. */
  lemma SentAfterGate(node: Node, keys: Keys, privateKey: string, tx: UnsignedTx, txHash: string,
                      gate: seq<Call>, log: seq<Call>)
    requires NoTransferSteps(gate)
    requires SignedAndSent(node, keys, privateKey, tx, txHash, log)
    requires forall t :: Signing(t) in log ==> t == tx
    ensures SignedAndSent(node, keys, privateKey, tx, txHash, gate + log)
    ensures forall t :: Signing(t) in gate + log ==> t == tx
  {
  }

  /** The collaborator calls that read a balance for a transfer's gate. */
  predicate IsBalanceRead(c: Call) {
    c.BalanceRead? || c.TokenBalanceRead?
  }

  /** Every step of a transfer in the log comes after a balance read. */
  ghost predicate GatedLog(log: seq<Call>) {
    forall i :: 0 <= i < |log| && IsTransferStep(log[i]) ==>
      exists j :: 0 <= j < i && IsBalanceRead(log[j])
  }

  /** No step of a transfer appears in the log. */
  ghost predicate NoTransferSteps(log: seq<Call>) {
    forall c :: c in log ==> !IsTransferStep(c)
  }

  /** A log that begins with a gate prefix holding a balance read and no transfer step is
      gated, whatever follows. */
  lemma GatedAfterRead(gate: seq<Call>, rest: seq<Call>, at: nat)
    requires at < |gate| && IsBalanceRead(gate[at])
    requires NoTransferSteps(gate)
    ensures GatedLog(gate + rest)
  {
    var log := gate + rest;
    forall i | 0 <= i < |log| && IsTransferStep(log[i])
      ensures exists j :: 0 <= j < i && IsBalanceRead(log[j])
    {
      assert log[at] == gate[at];
    }
  }
}

=== FILE: units.dfy ===
/** Conversion between human amounts and base units (wei for BNB, the token's smallest
    unit otherwise), in exact arithmetic, and the balance gate of both transfer kinds. */
module Units {

  function Pow10(d: nat): (p: nat)
    ensures p >= 1
  {
    if d == 0 then 1 else 10 * Pow10(d - 1)
  }

  /** `10 ** decimals` as a factor between a human amount and base units. */
  function UnitScale(decimals: nat): (factor: real)
    ensures factor >= 1.0
  {
    Pow10(decimals) as real
  }

  /** 2^256: the first raw amount a `uint256` cannot hold. */
  const Uint256Limit: int := 0x1_0000_0000_0000_0000_0000_0000_0000_0000_0000_0000_0000_0000_0000_0000_0000_0000

  /** A raw amount web3 accepts as wei or as a `uint256` argument. */
  predicate InUint256(raw: int) {
    0 <= raw < Uint256Limit
  }

  /** Python's `int(x)` on a number: truncation toward zero. */
  function Trunc(x: real): (r: int)
    ensures 0.0 <= x ==> 0 <= r && r as real <= x < r as real + 1.0
    ensures x < 0.0 ==> r <= 0 && x <= r as real < x + 1.0
  {
    if x >= 0.0 then x.Floor else -((-x).Floor)
  }

  /** Multiplying both sides by a positive factor keeps a strict comparison. */
  lemma ScaleKeepsOrder(x: real, y: real, p: real)
    requires p > 0.0
    ensures x < y <==> x * p < y * p
  {
  }

  /** `raw / (10 ** decimals)`, the human-readable amount of a raw balance: scaled back by
      `10^decimals` it is the raw amount, so it has the sign of the raw amount. */
  function FromBaseUnits(raw: int, decimals: nat): (amount: real)
    ensures amount * UnitScale(decimals) == raw as real
    ensures amount == 0.0 <==> raw == 0
    ensures amount < 0.0 <==> raw < 0
  {
    var p := UnitScale(decimals);
    var amount := raw as real / p;
    ScaleKeepsOrder(amount, 0.0, p);
    ScaleKeepsOrder(0.0, amount, p);
    amount
  }

  /** `int(amount * (10 ** decimals))`, the raw amount of a transfer: for a non-negative
      amount the most base units worth no more than it, for a negative one the fewest worth
      no less than it. */
  function ToBaseUnits(amount: real, decimals: nat): (raw: int)
    ensures 0.0 <= amount ==>
              0 <= raw && FromBaseUnits(raw, decimals) <= amount < FromBaseUnits(raw + 1, decimals)
    ensures amount < 0.0 ==>
              raw <= 0 && FromBaseUnits(raw - 1, decimals) < amount <= FromBaseUnits(raw, decimals)
  {
    var raw := Trunc(amount * UnitScale(decimals));
    if 0.0 <= amount then
      TruncFloorsUnits(amount, decimals, raw);
      raw
    else
      TruncCeilsUnits(amount, decimals, raw);
      raw
  }

  /** A non-negative amount truncates to the multiple of a base unit just below it. */
  lemma TruncFloorsUnits(amount: real, decimals: nat, raw: int)
    requires 0.0 <= amount
    requires raw == Trunc(amount * UnitScale(decimals))
    ensures 0 <= raw && FromBaseUnits(raw, decimals) <= amount < FromBaseUnits(raw + 1, decimals)
  {
    var p := UnitScale(decimals);
    ScaleKeepsOrder(amount, 0.0, p);
    assert raw as real <= amount * p < raw as real + 1.0;
    assert FromBaseUnits(raw, decimals) * p == raw as real;
    assert FromBaseUnits(raw + 1, decimals) * p == raw as real + 1.0;
    ScaledBetween(amount, p, FromBaseUnits(raw, decimals), FromBaseUnits(raw + 1, decimals));
  }

  /** A negative amount truncates to the multiple of a base unit just above it. */
  lemma TruncCeilsUnits(amount: real, decimals: nat, raw: int)
    requires amount < 0.0
    requires raw == Trunc(amount * UnitScale(decimals))
    ensures raw <= 0 && FromBaseUnits(raw - 1, decimals) < amount <= FromBaseUnits(raw, decimals)
  {
    var p := UnitScale(decimals);
    ScaleKeepsOrder(amount, 0.0, p);
    assert raw as real - 1.0 < amount * p <= raw as real;
    assert FromBaseUnits(raw, decimals) * p == raw as real;
    assert FromBaseUnits(raw - 1, decimals) * p == raw as real - 1.0;
    ScaledBetween(amount, p, FromBaseUnits(raw - 1, decimals), FromBaseUnits(raw, decimals));
  }

  /** Bounds on a scaled value carry over to the value, keeping which side is strict. */
  lemma ScaledBetween(x: real, p: real, lo: real, hi: real)
    requires p > 0.0
    ensures lo * p <= x * p < hi * p ==> lo <= x < hi
    ensures lo * p < x * p <= hi * p ==> lo < x <= hi
  {
    ScaleKeepsOrder(x, lo, p);
    ScaleKeepsOrder(lo, x, p);
    ScaleKeepsOrder(x, hi, p);
    ScaleKeepsOrder(hi, x, p);
  }

  /** `to_wei`'s range test, made on the exact amount in base units before any rounding:
      web3 accepts an amount whose value in base units lies in `0 .. 2^256 - 1`. */
  predicate ScaledInUint256(amount: real, decimals: nat) {
    var scaled := amount * UnitScale(decimals);
    0.0 <= scaled && scaled <= (Uint256Limit - 1) as real
  }

  /** An amount `to_wei` accepts truncates to a raw amount a `uint256` holds. The test on
      the exact value refuses every negative amount, also those within one base unit below
      zero that truncate to 0; of the non-negative amounts it accepts all whose truncation
      lies below `2^256 - 1`, and refuses those in the last fraction of a unit below `2^256`. */
  lemma {:induction false} ScaledInUint256Cases(amount: real, decimals: nat)
    ensures ScaledInUint256(amount, decimals) ==> InUint256(ToBaseUnits(amount, decimals))
    ensures amount < 0.0 ==> !ScaledInUint256(amount, decimals)
    ensures 0.0 <= amount && ToBaseUnits(amount, decimals) < Uint256Limit - 1 ==> ScaledInUint256(amount, decimals)
  {
    var p := UnitScale(decimals);
    ScaleKeepsOrder(amount, 0.0, p);
    if 0.0 <= amount {
      var raw := ToBaseUnits(amount, decimals);
      ScaleKeepsOrder(FromBaseUnits(raw, decimals), amount, p);
      ScaleKeepsOrder(amount, FromBaseUnits(raw + 1, decimals), p);
    }
  }

  /** The balance gate: the formatted balance is below the requested amount, which is the
      raw balance being below the scaled amount. */
  function Below(balanceRaw: nat, decimals: nat, amount: real): (below: bool)
    ensures below <==> (balanceRaw as real) < amount * UnitScale(decimals)
  {
    ScaleKeepsOrder(FromBaseUnits(balanceRaw, decimals), amount, UnitScale(decimals));
    FromBaseUnits(balanceRaw, decimals) < amount
  }

  /** Converting a raw amount to a human amount and back gives the raw amount again; so every
      amount with at most `decimals` fractional digits, which is `FromBaseUnits(raw, decimals)`
      for some `raw`, survives the trip to base units and back. */
  lemma BaseUnitsRoundTrip(raw: int, decimals: nat)
    ensures ToBaseUnits(FromBaseUnits(raw, decimals), decimals) == raw
  {
  }

  /** In exact arithmetic a transfer that passed the gate never moves more base units than
      the balance holds. */
  lemma GatePassedCoversTransfer(balanceRaw: nat, decimals: nat, amount: real)
    requires !Below(balanceRaw, decimals, amount)
    ensures ToBaseUnits(amount, decimals) <= balanceRaw
  {
  }

  /** A zero balance formats as zero, and only a zero balance does. */
  lemma ZeroBalance(balanceRaw: nat, decimals: nat)
    ensures FromBaseUnits(balanceRaw, decimals) == 0.0 <==> balanceRaw == 0
  {
  }
}

=== FILE: wallet_generator.dfy ===
/** Wallet records: mnemonic validation, BIP-44 derivation of the first address of an
    account, generation of a fresh wallet, and import from a raw private key.

    BIP-39 (checksum and seed) and BIP-32 (child key derivation) are the `Keys` oracles; the
    model is about which path is walked, what is reported, and in which order the steps run. */
module WalletGenerator {
  import opened Base
  import opened Errors
  import opened Text
  import opened Config
  import opened Collaborators

  /** The marker an imported wallet carries instead of a mnemonic and a path. */
  const ImportedMarker: string := "N/A (imported from private key)"

  /** `validate_mnemonic`: the checker's answer, and false when the checker raises. */
  function ValidateMnemonic(keys: Keys, mnemonic: string): (valid: bool)
    ensures valid <==> keys.check(mnemonic) == Value(true)
    ensures keys.check(mnemonic).Raised? ==> !valid
  {
    match keys.check(mnemonic)
    case Value(b) => b
    case Raised(_) => false
  }

  /** The levels `Purpose().Coin().Account(i).Change(CHAIN_EXT).AddressIndex(0)` walks under
      the BIP-44 scheme with SLIP-44 coin type 60: purpose, coin and account are hardened. */
  function WalkedPath(accountIndex: nat): (path: seq<PathLevel>)
    ensures |path| == 5
    ensures path[2] == Hardened(accountIndex) && path[4] == Normal(0)
  {
    [Hardened(44), Hardened(60), Hardened(accountIndex), Normal(0), Normal(0)]
  }

  /** One level in path notation: `/index`, with a `'` when hardened. */
  function Segment(level: PathLevel): string {
    "/" + NatToString(level.index) + (if level.Hardened? then "'" else "")
  }

  /** A derivation path in the usual `m/44'/60'/...` notation. */
  function RenderPath(levels: seq<PathLevel>): string {
    if levels == [] then "m" else RenderPath(levels[..|levels| - 1]) + Segment(levels[|levels| - 1])
  }

  lemma RenderPathSnoc(levels: seq<PathLevel>, last: PathLevel)
    ensures RenderPath(levels + [last]) == RenderPath(levels) + Segment(last)
  {
    assert (levels + [last])[..|levels|] == levels;
  }

  /** The path string a derived record reports: the index is put in the address position,
      after a fixed account-0 prefix, and can be read back from there. */
  function ReportedPath(accountIndex: nat): (path: string)
    ensures |path| > 15 && path[..15] == "m/44'/60'/0'/0/"
    ensures path[15..] == NatToString(accountIndex)
    ensures DecimalValue(path[15..]) == accountIndex
  {
    var path := "m/44'/60'/0'/0/" + NatToString(accountIndex);
    NatToStringRoundTrip(accountIndex);
    assert path[15..] == NatToString(accountIndex);
    path
  }

  lemma SegmentsOfWalkedPath(accountIndex: nat)
    ensures Segment(Hardened(44)) == "/44'" && Segment(Hardened(60)) == "/60'" && Segment(Normal(0)) == "/0"
    ensures Segment(Hardened(accountIndex)) == "/" + NatToString(accountIndex) + "'"
  {
    assert NatToString(44) == "44" by {
      assert NatToString(4) == "4";
    }
    assert NatToString(60) == "60" by {
      assert NatToString(6) == "6";
    }
  }

  /** A five-level path renders as "m" followed by its five segments. */
  lemma RenderFiveLevels(a: PathLevel, b: PathLevel, c: PathLevel, d: PathLevel, e: PathLevel)
    ensures RenderPath([a, b, c, d, e]) == "m" + Segment(a) + Segment(b) + Segment(c) + Segment(d) + Segment(e)
  {
    RenderPathSnoc([], a);
    assert [] + [a] == [a];
    RenderPathSnoc([a], b);
    assert [a] + [b] == [a, b];
    RenderPathSnoc([a, b], c);
    assert [a, b] + [c] == [a, b, c];
    RenderPathSnoc([a, b, c], d);
    assert [a, b, c] + [d] == [a, b, c, d];
    RenderPathSnoc([a, b, c, d], e);
    assert [a, b, c, d] + [e] == [a, b, c, d, e];
  }

  /** The rendering of the path actually walked: the index is in the account position. */
  lemma WalkedPathRendering(accountIndex: nat)
    ensures RenderPath(WalkedPath(accountIndex)) == "m/44'/60'/" + NatToString(accountIndex) + "'/0/0"
  {
    RenderFiveLevels(Hardened(44), Hardened(60), Hardened(accountIndex), Normal(0), Normal(0));
    SegmentsOfWalkedPath(accountIndex);
    var digits := NatToString(accountIndex);
    assert "m" + "/44'" + "/60'" + ("/" + digits + "'") + "/0" + "/0" == "m/44'/60'/" + digits + "'/0/0";
  }

  /** The reported path and the walked path name the same key only for account 0: for any
      other index the report puts it in the address position while derivation used it as
      the account. */
  lemma ReportedPathMatchesWalkedOnlyAtZero(accountIndex: nat)
    ensures ReportedPath(accountIndex) == RenderPath(WalkedPath(accountIndex)) <==> accountIndex == 0
  {
    WalkedPathRendering(accountIndex);
    NatToStringLeadingDigit(accountIndex);
    var walked := RenderPath(WalkedPath(accountIndex));
    var digits := NatToString(accountIndex);
    assert walked[10] == digits[0];
    assert ReportedPath(accountIndex)[10] == '0';
    if accountIndex == 0 {
      assert digits == "0";
    }
  }

  /** The reported path is the configured BIP-44 path exactly for account 0. */
  lemma ReportedPathIsConfiguredOnlyAtZero(accountIndex: nat)
    ensures ReportedPath(accountIndex) == Bip44Path <==> accountIndex == 0
  {
    NatToStringZero(accountIndex);
    var prefix := "m/44'/60'/0'/0/";
    assert Bip44Path == prefix + "0";
    if ReportedPath(accountIndex) == Bip44Path {
      assert ReportedPath(accountIndex)[|prefix|..] == NatToString(accountIndex);
      assert Bip44Path[|prefix|..] == "0";
    }
  }

  /** The dictionary describing a wallet. */
  datatype WalletRecord = WalletRecord(
    mnemonic: string,
    privateKey: string,
    publicKey: string,
    address: string,
    bip44Path: string)

  /** `derive_wallet_from_mnemonic`: validate, derive the seed, walk the path, render the
      key as hex and let eth_account compute the public key and address. An exception of
      the seed generator, the derivation or `from_key` is re-raised as it came. */
  function DeriveWalletFromMnemonic(keys: Keys, mnemonic: string, accountIndex: nat): (r: Traced<WalletRecord>)
    ensures !ValidateMnemonic(keys, mnemonic) <==> r.result == Err(InvalidMnemonic)
    ensures !ValidateMnemonic(keys, mnemonic) ==> r.log == []
    ensures ValidateMnemonic(keys, mnemonic) ==> |r.log| >= 1 && r.log[0] == SeedDerivation(mnemonic)
    ensures r.result.Ok? <==>
              && ValidateMnemonic(keys, mnemonic)
              && keys.seedOf(mnemonic).Value?
              && keys.derive(keys.seedOf(mnemonic).value, WalkedPath(accountIndex)).Value?
              && keys.fromKey(Hex(keys.derive(keys.seedOf(mnemonic).value, WalkedPath(accountIndex)).value)).Value?
    ensures (ValidateMnemonic(keys, mnemonic) && keys.seedOf(mnemonic).Raised?)
              ==> r.result == Err(Propagated(keys.seedOf(mnemonic).message)) && r.log == [SeedDerivation(mnemonic)]
    ensures (ValidateMnemonic(keys, mnemonic) && keys.seedOf(mnemonic).Value?)
              ==> var derived := keys.derive(keys.seedOf(mnemonic).value, WalkedPath(accountIndex));
                  && r.log == [SeedDerivation(mnemonic), KeyDerivation(WalkedPath(accountIndex))]
                  && (derived.Raised? ==> r.result == Err(Propagated(derived.message)))
                  && (derived.Value? && keys.fromKey(Hex(derived.value)).Raised?
                      ==> r.result == Err(Propagated(keys.fromKey(Hex(derived.value)).message)))
    ensures r.result.Ok? ==>
              var w := r.result.value;
              var derived := keys.derive(keys.seedOf(mnemonic).value, WalkedPath(accountIndex));
              && w.mnemonic == mnemonic
              && w.privateKey == Hex(derived.value)
              && keys.fromKey(w.privateKey) == Value(Account(w.address, w.publicKey))
              && w.bip44Path == ReportedPath(accountIndex)
  {
    if !ValidateMnemonic(keys, mnemonic) then Traced(Err(InvalidMnemonic), [])
    else
      match keys.seedOf(mnemonic)
      case Raised(m) => Traced(Err(Propagated(m)), [SeedDerivation(mnemonic)])
      case Value(seed) =>
        var path := WalkedPath(accountIndex);
        var calls := [SeedDerivation(mnemonic), KeyDerivation(path)];
        match keys.derive(seed, path)
        case Raised(m) => Traced(Err(Propagated(m)), calls)
        case Value(bytes) =>
          var privateKey := Hex(bytes);
          match keys.fromKey(privateKey)
          case Raised(m) => Traced(Err(Propagated(m)), calls)
          case Value(account) =>
            Traced(Ok(WalletRecord(mnemonic, privateKey, account.publicKey, account.address, ReportedPath(accountIndex))),
                   calls)
  }

  /** Derivation refuses a mnemonic as invalid exactly when the checker does not answer
      true, whether it answers false or raises; no seed is derived from such a mnemonic. */
  lemma DerivationRejectsUncheckedMnemonic(keys: Keys, mnemonic: string, accountIndex: nat)
    ensures (DeriveWalletFromMnemonic(keys, mnemonic, accountIndex).result == Err(InvalidMnemonic))
            <==> keys.check(mnemonic) != Value(true)
    ensures keys.check(mnemonic) != Value(true) ==>
              SeedDerivation(mnemonic) !in DeriveWalletFromMnemonic(keys, mnemonic, accountIndex).log
  {
  }

  /** `create_new_wallet`: a fresh mnemonic from the given entropy, derived at account 0,
      so the record's path is the configured one. */
  function CreateNewWallet(keys: Keys, strength: nat, entropy: seq<bv8>): (r: Traced<WalletRecord>)
    ensures (keys.generate(strength, entropy).Raised?)
              ==> r.result == Err(Propagated(keys.generate(strength, entropy).message)) && r.log == []
    ensures (keys.generate(strength, entropy).Value?)
              ==> r == DeriveWalletFromMnemonic(keys, keys.generate(strength, entropy).value, 0)
    ensures r.result.Ok? ==>
              && keys.generate(strength, entropy).Value?
              && r.result.value.mnemonic == keys.generate(strength, entropy).value
              && r.result.value.bip44Path == Bip44Path
  {
    match keys.generate(strength, entropy)
    case Raised(m) => Traced(Err(Propagated(m)), [])
    case Value(mnemonic) =>
      ReportedPathIsConfiguredOnlyAtZero(0);
      DeriveWalletFromMnemonic(keys, mnemonic, 0)
  }

  /** `import_wallet_from_private_key`: one lower-case `0x` is stripped and the stripped key
      is stored; mnemonic and path carry the import marker. */
  function ImportWalletFromPrivateKey(keys: Keys, privateKey: string): (r: Result<WalletRecord>)
    ensures r.Ok? <==> keys.fromKey(StripHexPrefix(privateKey)).Value?
    ensures r.Ok? ==>
              var w := r.value;
              && (StartsWith(privateKey, "0x") ==> "0x" + w.privateKey == privateKey)
              && (!StartsWith(privateKey, "0x") ==> w.privateKey == privateKey)
              && keys.fromKey(w.privateKey) == Value(Account(w.address, w.publicKey))
              && w.mnemonic == ImportedMarker
              && w.bip44Path == ImportedMarker
  {
    var stripped := StripHexPrefix(privateKey);
    match keys.fromKey(stripped)
    case Raised(m) => Err(Propagated(m))
    case Value(account) => Ok(WalletRecord(ImportedMarker, stripped, account.publicKey, account.address, ImportedMarker))
  }

  /** Importing a key with or without its `0x` prefix gives the same record. */
  lemma ImportIgnoresPrefix(keys: Keys, privateKey: string)
    requires !StartsWith(privateKey, "0x")
    ensures ImportWalletFromPrivateKey(keys, "0x" + privateKey) == ImportWalletFromPrivateKey(keys, privateKey)
  {
    StripHexPrefixInverse(privateKey);
  }

  /** Re-importing the private key of a derived wallet gives the same key, public key and
      address, with the import markers in place of mnemonic and path. */
  lemma ReimportDerivedKey(keys: Keys, mnemonic: string, accountIndex: nat)
    requires DeriveWalletFromMnemonic(keys, mnemonic, accountIndex).result.Ok?
    ensures var w := DeriveWalletFromMnemonic(keys, mnemonic, accountIndex).result.value;
            ImportWalletFromPrivateKey(keys, w.privateKey)
              == Ok(WalletRecord(ImportedMarker, w.privateKey, w.publicKey, w.address, ImportedMarker))
  {
    var derived := keys.derive(keys.seedOf(mnemonic).value, WalkedPath(accountIndex));
    HexHasNoPrefix(derived.value);
  }
}

=== FILE: watcher.dfy ===
/** The confirmation watcher of both transfer kinds.

    While the elapsed time is below the timeout it looks the receipt up; a receipt ends the
    watch as Success (status 1) or Failed, while a lookup that raises or returns nothing means
    "not yet mined" and the watch sleeps 2 seconds and tests the clock again. When the time is
    up without a receipt it raises a timeout. Time is an abstract clock: `check(k)` is the
    elapsed time in whole seconds at the k-th loop test and `stamp(k)` the elapsed time read
    when the k-th lookup returns a receipt. */
module Watcher {
  import opened Errors
  import opened Collaborators

  /** The sleep between two polls, in seconds. */
  const PollInterval: nat := 2
  /** The timeout the transfer pipelines use, in seconds. */
  const DefaultTimeout: int := 300

  datatype Clock = Clock(check: nat -> int, stamp: nat -> int)

  /** A clock read at the start, never moving backwards, and moving by at least the poll
      interval between two loop tests because of the sleep in between. */
  ghost predicate Ticks(clock: Clock) {
    && 0 <= clock.check(0)
    && (forall k: nat :: clock.check(k) <= clock.stamp(k))
    && (forall k: nat :: clock.check(k) + PollInterval <= clock.check(k + 1))
  }

  /** The dictionary a confirmed watch returns. */
  datatype Confirmation = Confirmation(
    txHash: string,
    status: TxStatus,
    gasUsed: nat,
    blockNumber: nat,
    confirmationTime: int)

  /** The end of a watch and the number of receipt lookups it made. */
  datatype Watched = Watched(result: Result<Confirmation>, polls: nat)

  /** The watch from the k-th loop test on, as a recursive reference definition. */
  function Outcome(txHash: string, timeout: int, poll: (string, nat) -> Lookup, clock: Clock, k: nat): (w: Watched)
    requires Ticks(clock)
    ensures w.polls >= k
    decreases timeout - clock.check(k)
  {
    if clock.check(k) >= timeout then
      Watched(Err(ConfirmationTimeout(timeout)), k)
    else
      match poll(txHash, k)
      case Mined(receipt) =>
        Watched(Ok(Confirmation(txHash, ReceiptStatus(receipt), receipt.gasUsed, receipt.blockNumber, clock.stamp(k))), k + 1)
      case _ =>
        Outcome(txHash, timeout, poll, clock, k + 1)
  }

  /** A confirmed watch: the deciding lookup came in time, it is the first receipt seen,
      and the result carries its status, gas and block. */
  ghost predicate ConfirmedBy(txHash: string, timeout: int, poll: (string, nat) -> Lookup, clock: Clock,
                              k: nat, w: Watched)
  {
    && w.result.Ok?
    && k < w.polls
    && poll(txHash, w.polls - 1).Mined?
    && clock.check(w.polls - 1) < timeout
    && (forall j :: k <= j < w.polls - 1 ==> !poll(txHash, j).Mined?)
    && var receipt := poll(txHash, w.polls - 1).receipt;
       w.result.value == Confirmation(txHash, ReceiptStatus(receipt), receipt.gasUsed, receipt.blockNumber,
                                      clock.stamp(w.polls - 1))
  }

  /** A timed-out watch: every lookup came in time and found nothing, and the last test
      saw the time up. */
  ghost predicate TimedOut(txHash: string, timeout: int, poll: (string, nat) -> Lookup, clock: Clock,
                           k: nat, w: Watched)
  {
    && w.result == Err(ConfirmationTimeout(timeout))
    && timeout <= clock.check(w.polls)
    && (forall j :: k <= j < w.polls ==> !poll(txHash, j).Mined? && clock.check(j) < timeout)
  }

  /** Every watch either is confirmed by its first in-time receipt or times out. */
  lemma {:induction false} OutcomeCases(txHash: string, timeout: int, poll: (string, nat) -> Lookup, clock: Clock, k: nat)
    requires Ticks(clock)
    ensures ConfirmedBy(txHash, timeout, poll, clock, k, Outcome(txHash, timeout, poll, clock, k))
         || TimedOut(txHash, timeout, poll, clock, k, Outcome(txHash, timeout, poll, clock, k))
    decreases timeout - clock.check(k)
  {
    if clock.check(k) < timeout && !poll(txHash, k).Mined? {
      assert clock.check(k) + PollInterval <= clock.check(k + 1);
      OutcomeCases(txHash, timeout, poll, clock, k + 1);
    }
  }

  /** The loop tests happen at least a poll interval apart. */
  lemma {:induction false} ClockAdvances(clock: Clock, a: nat, b: nat)
    requires Ticks(clock)
    requires a <= b
    ensures clock.check(a) + PollInterval * (b - a) <= clock.check(b)
    decreases b - a
  {
    if a < b {
      ClockAdvances(clock, a, b - 1);
      assert clock.check(b - 1) + PollInterval <= clock.check(b);
    }
  }

  /** A receipt that is there at a loop test before the deadline is always seen: the watch
      succeeds, at that lookup or at an earlier one. */
  lemma ReceiptInTimeIsSeen(txHash: string, timeout: int, poll: (string, nat) -> Lookup, clock: Clock, j: nat)
    requires Ticks(clock)
    requires clock.check(j) < timeout
    requires poll(txHash, j).Mined?
    ensures Outcome(txHash, timeout, poll, clock, 0).result.Ok?
    ensures Outcome(txHash, timeout, poll, clock, 0).polls <= j + 1
  {
    var w := Outcome(txHash, timeout, poll, clock, 0);
    OutcomeCases(txHash, timeout, poll, clock, 0);
    if w.polls <= j {
      ClockAdvances(clock, w.polls, j);
    }
  }

  /** The watch never hangs: its lookups all happen before the deadline, a poll interval
      apart, so there are at most about timeout / 2 of them; with a timeout of zero or less
      it makes none and raises at once. */
  lemma PollsBounded(txHash: string, timeout: int, poll: (string, nat) -> Lookup, clock: Clock)
    requires Ticks(clock)
    ensures var w := Outcome(txHash, timeout, poll, clock, 0);
            w.polls == 0 || PollInterval * (w.polls - 1) < timeout - clock.check(0)
    ensures timeout <= clock.check(0) ==> Outcome(txHash, timeout, poll, clock, 0) == Watched(Err(ConfirmationTimeout(timeout)), 0)
  {
    var w := Outcome(txHash, timeout, poll, clock, 0);
    OutcomeCases(txHash, timeout, poll, clock, 0);
    if w.polls > 0 {
      ClockAdvances(clock, 0, w.polls - 1);
    }
  }

  /** `wait_for_confirmation` as the polling loop. */
  method Watch(txHash: string, timeout: int, poll: (string, nat) -> Lookup, clock: Clock)
    returns (r: Result<Confirmation>, polls: nat)
    requires Ticks(clock)
    ensures Watched(r, polls) == Outcome(txHash, timeout, poll, clock, 0)
    ensures r.Ok? ==> polls >= 1 && poll(txHash, polls - 1).Mined?
                      && clock.check(polls - 1) < timeout
                      && (r.value.status == Success <==> poll(txHash, polls - 1).receipt.status == 1)
    ensures r.Err? ==> r.error == ConfirmationTimeout(timeout)
                       && forall j :: 0 <= j < polls ==> !poll(txHash, j).Mined?
    ensures timeout <= 0 ==> r.Err? && polls == 0
  {
    OutcomeCases(txHash, timeout, poll, clock, 0);
    var k: nat := 0;
    while clock.check(k) < timeout
      invariant Outcome(txHash, timeout, poll, clock, k) == Outcome(txHash, timeout, poll, clock, 0)
      decreases timeout - clock.check(k)
    {
      var lookup := poll(txHash, k);
      if lookup.Mined? {
        var receipt := lookup.receipt;
        r := Ok(Confirmation(txHash, ReceiptStatus(receipt), receipt.gasUsed, receipt.blockNumber, clock.stamp(k)));
        polls := k + 1;
        return;
      }
      assert clock.check(k) + PollInterval <= clock.check(k + 1);
      k := k + 1;
    }
    r := Err(ConfirmationTimeout(timeout));
    polls := k;
  }
}
